=== FILE: README.md ===
# Pravea console: decision logic of the Electron shell, modelled in Dafny

The Pravea console is an Electron desktop application for Active Directory
recovery work. This project models the parts of it that make decisions:

- **The `run-powershell` bridge** of the main process (`ScriptBridge`, `ShellLine`).
  It locates a script by name, in four places for a packaged build and one for
  a development run. A missing script is answered with a failure at once.
  Otherwise the bridge starts PowerShell on the script with a fixed argument
  vector. The way the child process ends is mapped to one tagged result:
  `Success(output)` or `Failure(error, output)`. The file system, the platform
  and the child process are inputs: an `Env` holding the set of existing paths,
  and a `ProcessOutcome` or the raw stream of the child's events.
- **The startup choreography** (`Startup`). A splash window shows a six-stage
  progress ramp, 20, 35, 50, 65, 80 and 95 percent, followed by 100. The
  hidden main window is revealed, and the splash destroyed, once both the
  initialization has resolved and the window has fired 'ready-to-show'.
  The user may close the splash at any time; later sends to it are dropped,
  and the main window is still revealed. Timers are left out: a run is a
  sequence of events in any order.
- **The cleanup page's option flags** (`Cleanup`). This is a map of 17 option
  flags plus a derived `selectAll` flag. The page keeps `selectAll` equal to
  "every option is on", and its counter shows how many options are selected.
- **The forest recovery table** (`ForestRecovery`, `Csv`). Rows are filtered
  by a case-insensitive search and two drop-downs. The CSV export writes exactly
  the shown rows, quoting values as section 2 of RFC 4180 describes but
  separating lines with LF rather than CRLF. A reader for that format is
  included, so the export is shown to read back as the headers and the rows'
  values.
- **The navigation bar** (`Header`). It picks the highlighted tab by raw prefix
  match of the route, and a tab click navigates and closes the menus.

`Strings` holds the JavaScript string operations the code relies on:
- `trim` over the full ECMAScript white-space set;
- ASCII `toLowerCase`;
- `includes`, `startsWith` and `join`;
- the decimal printing of an integer in a template literal.

`Optional` holds the `Option` type.

The splash page sends a 'splash-retry' message from its Retry button
(src/main.js:17), but the main process registers no handler for it, so the
model has no retry transition.

## Model

| member | source | states |
|---|---|---|
| ScriptBridge.Resolve | src/main.js:133-165 | a packaged build resolves to the first of the four candidates that exists, in the fixed order; a development run resolves to cwd/scripts/name; a resolved path always exists; the answer is not-found exactly when no candidate (or the development path) exists, and a not-found answer is a failure with empty output |
| ScriptBridge.FindFirst | src/main.js:142 | `find` over the candidates returns the first existing path: the one returned exists and none before it does; nothing is returned only if none exists |
| ScriptBridge.PackagedCandidates | src/main.js:135-140 | the four probed paths, in order: resources/scripts, resources/app.asar.unpacked/scripts, the bundle's ../scripts, resources/app/scripts, each followed by the name |
| ScriptBridge.DevPath | src/main.js:154 | a development run probes cwd/scripts/name, whose directory is cwd/scripts when the name holds no '/' |
| ScriptBridge.Interpreter | src/main.js:168 | the interpreter is powershell.exe exactly on win32 and pwsh exactly elsewhere |
| ScriptBridge.SpawnFor | src/main.js:167-172 | the spawned argument vector is the three bypass flags, the script path, then the caller's arguments unchanged; the command is the platform's interpreter; the working directory is the directory of the script path |
| ScriptBridge.NotFoundSearched | src/main.js:147-150 | the packaged build's not-found answer is a failure with empty output whose error begins "Script not found: " followed by the name and ends with the probed paths joined by ", " |
| ScriptBridge.NotFoundAt | src/main.js:160-163 | the missing-path answer is a failure with empty output whose error begins "Script not found: " followed by the name and ends with the path |
| ScriptBridge.NotFoundNamesProbes | src/main.js:144-164 | the not-found error names the script and, for a packaged build, contains every probed path |
| ScriptBridge.SearchedNamesAll | src/main.js:147-150 | the "Searched in" error contains the script name and each of the listed paths |
| ScriptBridge.PackagedNotFoundIsSearchFailure | src/main.js:144-165 | with the file system unchanged during the call, the second existence check cannot fail after a successful search in a packaged build, so every packaged not-found answer is the "Searched in" failure |
| ScriptBridge.CodeText | src/main.js:205 | a close code prints as text that parses back to the code, and a null code prints as "null", which no number prints as |
| ScriptBridge.Settle | src/main.js:188-209 | exit code 0 is the only success, with the trimmed stdout as output; a spawn error is a failure with empty output whose error contains the underlying message; any other exit is a failure whose error contains the printed code and whose output is the trimmed stderr when that is non-empty, else the trimmed stdout |
| ScriptBridge.ExitCodeRecoverable | src/main.js:200-207 | the exit code can be read back unchanged from the error text of a nonzero exit, so different codes give different errors |
| ScriptBridge.RunPowershell | src/main.js:129-211 | a process is spawned exactly when the script resolves, and then it is the spawn for the resolved path (the first existing candidate, or cwd/scripts/name in a development run) and the result is the settled outcome; otherwise nothing is spawned and the result is exactly the resolver's not-found failure, with empty output; the argument vector is `-ExecutionPolicy Bypass -File <existing script path>` followed by the caller's arguments unchanged, the interpreter is powershell.exe exactly on win32 and pwsh elsewhere, the working directory is the script's directory, and the result is a success exactly when the exit code is 0 |
| ScriptBridge.NoSpawnIffNotFound | src/main.js:144-165 | a process is started exactly when the script is found |
| ScriptBridge.PackagedRunsFirstExisting | src/main.js:135-172 | in a packaged build the spawned process runs the first existing candidate |
| ScriptBridge.OnlyLastCandidateIsFallback | src/main.js:135-140 | as '/'-joined strings without collapsing "..", the first three candidate paths for a name differ from the last-resort resources/app/scripts path, which is the fourth |
| ScriptBridge.FallbackScenario | src/main.js:133-199 | a packaged win32 build with the script only in resources/app/scripts spawns powershell.exe on that copy, in that directory, with the caller's arguments, and passes back the trimmed output of a clean exit |
| ScriptBridge.ListenSettlesOnFirstTerminal | src/main.js:130-209 | the handler's promise stays pending until the first 'error' or 'close' event and then resolves with the result for that event over all the data received before it |
| ScriptBridge.ListenSettlesOnce | src/main.js:130-209 | once the promise has resolved, later events do not change the result |
| ScriptBridge.HeardFrom | src/main.js:177-209 | the listeners stay undecided exactly when no 'error' or 'close' event has arrived, and a decided outcome comes from an 'error' or 'close' event of the stream |
| ScriptBridge.Listen | src/main.js:177-209 | the promise is pending exactly when no 'error' or 'close' event has arrived, and it resolves to a success only if a 'close' with code 0 arrived |
| ScriptBridge.HandleEvents | src/main.js:177-209 | the listeners, run as a loop over the events with growing buffers and a resolve that only takes effect the first time, compute the same result as the declarative reading |
| ScriptBridge.LastSlash | src/main.js:172 | the position of the last '/' of a path: that character is '/', and no '/' follows it; none is returned when the path has no '/' |
| ScriptBridge.Dirname | src/main.js:172 | the working directory is "." for a path without '/'; otherwise it is the part of the path before its last '/' (or "/" when that is the first character) |
| ScriptBridge.DirnameOfJoinFile | src/main.js:136-172 | for a script name without '/', the working directory of the script joined into a directory is that directory |
| ShellLine.ShellSplitsBlankArgument | src/main.js:171-175 | (as written) with the shell option an argument containing a blank never reaches the interpreter intact |
| ShellLine.InstallPathWithBlankIsSplit | src/main.js:135-175 | (as written) a packaged build whose resources directory has a blank in its name hands PowerShell a broken `-File` path |
| ShellLine.ShellKeepsPlainWords | src/main.js:171-175 | the shell leaves the vector intact exactly when every element is non-empty and blank-free |
| ShellLine.DirectSpawnDeliversArguments | src/main.js:167-175 | (corrected) spawned without the shell, the interpreter receives the bypass flags, the existing script path and the caller's arguments exactly |
| Startup.StepPercent | src/main.js:34-37 | the percent of stage i equals 5 + ((i+1)/6)*90 as a real number and lies between 20 and 95 |
| Startup.SimulateInitialization | src/main.js:25-41 | seven progress messages: the six stage labels in order, each with the percent of its stage, then 100 "Startup complete"; percents strictly increase and the list equals the ramp `ProgressMessages` |
| Startup.ProgressRamp | src/main.js:34-40 | the percents are exactly 20, 35, 50, 65, 80, 95, 100 |
| Startup.RunFromFlags | src/main.js:76-97 | from any consistent state, a run keeps the gate invariant (shown iff both flags, splash gone once shown, `show()` called once iff shown); windowReady is set iff 'ready-to-show' fired; initFinished is set iff the first settling of the initialization promise was a resolve; the splash is gone iff it already was, the main window is shown, or the user closed it during the run |
| Startup.RevealIffBothSignals | src/main.js:76-92 | the main window is revealed exactly when 'ready-to-show' fired and the initialization resolved, in either order and whether or not the user closed the splash; `show()` then ran exactly once; the splash is gone exactly when the window was revealed or the user closed it |
| Startup.InitialInv | src/main.js:76-77 | the gate starts out satisfying its invariant, with the main window hidden and the splash open |
| Startup.StepPreservesInv | src/main.js:76-97 | every event, including the user closing the splash, keeps the gate invariant: shown iff both flags, the splash gone once shown, `show()` called once iff shown |
| Startup.SignalsCommute | src/main.js:85-92 | 'ready-to-show' then resolve leaves the same state as resolve then 'ready-to-show' |
| Startup.ProgressAfterRevealIgnored | src/main.js:19-81 | progress sent after the splash was destroyed changes nothing |
| Startup.RejectionKeepsMainHidden | src/main.js:93-97 | when the initialization rejects, the main window is never shown; the splash receives the error message, or "Initialization failed" when the message is empty, if the user had not closed it before the rejection, and nothing more otherwise |
| Startup.SuccessfulStartup | src/main.js:19-97 | a successful startup in which the user leaves the splash open, with 'ready-to-show' arriving at any point, leaves the splash with the whole ramp, the main window visible, `show()` called once and the splash destroyed |
| Startup.SplashClosedMidway | src/main.js:19-92 | when the user closes the splash part-way through the progress sends, a resolve after them still reveals the main window once, and the splash got exactly the progress sent before it was closed |
| Startup.ClosedSplashFrozen | src/main.js:19-23 | once the splash is gone, no later event delivers anything to it |
| Startup.ReadyBeforeResolve | src/main.js:19-92 | when 'ready-to-show' arrives at any point among the progress sends, a resolve after them all reveals the main window once, destroys the splash, and the splash has received exactly the progress sent |
| Startup.QuietRun | src/main.js:19-88 | before the initialization finishes, 'ready-to-show' only records readiness; while the splash is open every progress send reaches it in order, and once the user closed it none does; nothing is revealed |
| Startup.FirstSettle | src/main.js:90-97 | the first settling event of a run is a resolve or a rejection that occurs in the run; none is found only when the run has none |
| Startup.MaybeShow | src/main.js:78-83 | with both flags set, the main window is shown, `show()` is counted once more and the splash is destroyed; otherwise nothing changes; the flags and the splash inbox never change |
| Startup.MaybeShowIdempotentOnWindows | src/main.js:78-83 | calling `maybeShow` a second time leaves the window visible, the splash destroyed and the inbox as they were |
| Startup.SendToSplash | src/main.js:19-23 | only the splash inbox changes: it gains the message when the splash is alive and stays the same once it is destroyed |
| Startup.ErrorText | src/main.js:95 | the error text is never empty, and is the rejection's message when that is non-empty |
| Startup.Step | src/main.js:76-97 | every event keeps the gate invariant and only grows the splash inbox; after the first settling the flags from the promise no longer change; windowReady is set exactly by 'ready-to-show'; the splash becomes gone exactly by a reveal or the user closing it |
| Cleanup.InitialFlags | src/components/Cleanup.jsx:7-26 | the initial map holds exactly selectAll and the 17 option keys, all off |
| Cleanup.InitialValid | src/components/Cleanup.jsx:7-26 | the initial map satisfies the page invariant |
| Cleanup.Toggle | src/components/Cleanup.jsx:28-46 | toggling selectAll sets every flag, selectAll included, to the negation of the old selectAll; toggling an option flips exactly that option, keeps every other option, and sets selectAll to "all other flags are on" |
| Cleanup.TogglePreservesValid | src/components/Cleanup.jsx:28-46 | both kinds of toggle keep the invariant "the keys are selectAll and the 17 options, and selectAll is on iff every option is on" |
| Cleanup.ToggleTwiceRestores | src/components/Cleanup.jsx:37-44 | under the invariant, toggling the same option twice restores the original map |
| Cleanup.ToggleSelectAllTwice | src/components/Cleanup.jsx:29-35 | toggling selectAll twice sets every flag to the original selectAll |
| Cleanup.SelectAllMeansEverySelected | src/components/Cleanup.jsx:41-43 | under the invariant, selectAll is on exactly when the selected options are all 17 options |
| Cleanup.SelectedCount | src/components/Cleanup.jsx:143 | the counter (true values, less one when selectAll is on) equals the number of options that are on, and for the page's keys it is at most 17 |
| ForestRecovery.Filter | src/components/ForestRecovery.jsx:64-83 | every shown row passes all three predicates, and there are at most as many shown rows as table rows |
| ForestRecovery.FilterMembers | src/components/ForestRecovery.jsx:64-83 | a row is shown exactly when it is a row of the table that passes all three predicates |
| ForestRecovery.FilterAppend | src/components/ForestRecovery.jsx:64-83 | filtering keeps the table order: filtering a concatenation concatenates the filtered parts |
| ForestRecovery.FilterIdempotent | src/components/ForestRecovery.jsx:64-83 | filtering the shown rows again removes nothing |
| ForestRecovery.NoFilterShowsAll | src/components/ForestRecovery.jsx:66-79 | an empty query with both filters on "all" shows every row |
| ForestRecovery.MatchesSearch | src/components/ForestRecovery.jsx:66-71 | an empty query matches every row; otherwise a row matches iff the lower-cased query occurs in its lower-cased domain, FQDN, NetBIOS name, site or SAM account name |
| ForestRecovery.MatchesDomainFilter | src/components/ForestRecovery.jsx:74-76 | "all" keeps every row, "root" exactly the rows of type Root, "child" exactly the rows of type Child, and any other value no row |
| ForestRecovery.MatchesStatusFilter | src/components/ForestRecovery.jsx:79-80 | "all" keeps every row; any other filter keeps a row exactly when it has the status's length and agrees with it character by character once both are lower-cased, so "ACTIVE" keeps a row whose status is "Active" |
| ForestRecovery.SearchSkipsOtherColumns | src/components/ForestRecovery.jsx:66-71 | the SID, the IPv4 address and the status are never searched |
| ForestRecovery.SearchIgnoresQueryCase | src/components/ForestRecovery.jsx:66-71 | the search gives the same answer for a query and its lower-cased form |
| ForestRecovery.SampleDomainFilters | src/components/ForestRecovery.jsx:10-76 | on the shipped rows "root" keeps only the root controller and "child" the two child controllers |
| ForestRecovery.RowFields | src/components/ForestRecovery.jsx:103-115 | each exported row has one value per header |
| ForestRecovery.ExportReadsBack | src/components/ForestRecovery.jsx:99-119 | reading the exported text back gives the 11 headers, then exactly the values of the shown rows in table order (GC and RO as Yes/No), whatever quotes, commas or line breaks the values hold |
| ForestRecovery.HeaderLineReadsBack | src/components/ForestRecovery.jsx:101-102 | the bare header line reads back as the eleven header names |
| ForestRecovery.RowLineReadsBack | src/components/ForestRecovery.jsx:104-116 | a row's quoted line reads back as its eleven values in header order |
| ForestRecovery.ExportLines | src/components/ForestRecovery.jsx:102-118 | the first line is the bare header line, followed by exactly one line per shown row |
| ForestRecovery.ExportRowAt | src/components/ForestRecovery.jsx:103-117 | line i + 1 of the export is row i's quoted line, so rows keep their order, and its cells and values are row i's |
| ForestRecovery.ExportText | src/components/ForestRecovery.jsx:99-119 | the exported text begins with the bare header line |
| Csv.ParseFieldRoundTrip | src/components/ForestRecovery.jsx:116 | a value written quoted with its inner quotes doubled, or a plain header written bare, reads back as the value |
| Csv.ParseQuotedRoundTrip | src/components/ForestRecovery.jsx:116 | undoing the quote doubling gives back the original value |
| Csv.ParseRecordRoundTrip | src/components/ForestRecovery.jsx:102-116 | values written and joined with ',' read back as the values |
| Csv.ParseDocumentRoundTrip | src/components/ForestRecovery.jsx:101-119 | records written and joined with '\n' read back as the records |
| Csv.DoubleQuotes | src/components/ForestRecovery.jsx:116 | a value without quotes is unchanged, and one with a quote grows |
| Csv.QuoteField | src/components/ForestRecovery.jsx:116 | a written value begins and ends with a quote |
| Csv.QuoteFieldReadsBack | src/components/ForestRecovery.jsx:116 | a quoted value on its own reads back as the value, with nothing left over |
| Header.CurrentTab | src/components/Header.jsx:107-113 | "/" and "/dashboards" give dashboards; otherwise the result is the id of the first tab in declaration order whose path is a prefix of the route, and none exactly when no tab path is a prefix; any result is one of the five tab ids |
| Header.FirstPrefixTab | src/components/Header.jsx:110 | `find` returns the first tab whose path is a prefix of the route, or none when no tab path is |
| Header.PrefixIsNotSegmentAware | src/components/Header.jsx:110-111 | the match is on raw characters: "/awsx" belongs to the aws tab |
| Header.TestingRouteHasNoTab | src/components/Header.jsx:107-113 | the dashboards menu's "/testing" route highlights no tab |
| Header.TabClick | src/components/Header.jsx:160-164 | a tab click navigates to the tab's path and leaves neither a dropdown nor a submenu open |
| Header.ClickedTabIsCurrent | src/components/Header.jsx:107-164 | after clicking any tab, that tab is the highlighted one |
| Strings.Trim | src/main.js:199-206 | `trim` removes only white space from the two ends and leaves a string with no white space at either end |
| Strings.TrimEmptyIffAllSpace | src/main.js:206 | a string trims to empty exactly when it is all white space, which is when stderr falls back to stdout |
| Strings.TrimUnique | src/main.js:199-206 | the result of `trim` is pinned down: any non-empty infix with no white space at either end, cut out of the string by white space only, is what `trim` returns |
| Strings.TrimIdempotent | src/main.js:199-206 | trimming an already trimmed string changes nothing |
| Strings.IntToStringRoundTrip | src/main.js:205 | the printed exit code reads back as the code |
| Strings.IntToString | src/main.js:205 | the printed code is non-empty, starts with '-' exactly for a negative code, and is otherwise decimal digits |
| Strings.IntToStringInjective | src/main.js:205 | different exit codes print differently |
| Strings.ToLower | src/components/ForestRecovery.jsx:66-80 | lower-casing keeps the length, leaves no ASCII capital, and keeps every other character |

## Left out

- Electron windows and the app lifecycle are platform I/O and are not modelled: window construction, page loading, 'activate', 'window-all-closed' and the installer quit.
- Real file-system and process calls are inputs: `fs.existsSync` becomes a set of existing paths, and `spawn` becomes a process outcome or event stream. Logging to the console is dropped.
- Invocations of the handler run concurrently in the source. Each is independent, so one call is modelled at a time.
- `path.join` and `path.dirname` are plain '/'-separated string operations. The model does no normalisation of ".." or doubled separators, and has no Windows separators.
- Timers are not modelled: stage durations, hover delays and the login delay. A run is a sequence of events.
- The splash "retry" is not modelled, because the main process registers no handler for 'splash-retry'.
- The splash page's own rendering is not modelled. This includes its clamping of the percent and its rounding.
- Export's file download is not modelled: the Blob, the object URL and the date-stamped file name. The model stops at the text of the file.
- Header's hover menus, the user menu and the search box are rendering or timer driven.
- The login screen, sidebar and other components are rendering or mock data.
- ScriptBridge.PackagedNotFoundIsSearchFailure: the file system is one fixed set of existing paths per call, so a script deleted between the `find` and the second `fs.existsSync` (the "at <path>" failure in a packaged build) is not modelled.
- ScriptBridge.OnlyLastCandidateIsFallback: candidate paths are '/'-joined strings without ".." collapsing; Node's `path.join` normalises `<dirname>/../scripts`, which for a bundle directory directly under resources/app equals the fourth candidate.
- ScriptBridge.RunPowershell: the request is taken as a typed pair, a string script name and a sequence of string arguments. The rejection paths of the handler's promise are not modelled: a non-string name makes `path.join` throw, non-iterable arguments make the spread throw, and an argument holding a NUL character makes `spawn` throw.
- Process output chunks are taken as already-decoded strings. The source decodes each stdout and stderr chunk on its own with `data.toString()`, so a multi-byte UTF-8 character split across two chunks comes out garbled; the model does not reproduce that.
- Startup.SuccessfulStartup: states the run in which the user leaves the splash open; Startup.SplashClosedMidway covers a close part-way through the sends.
- Closing the main window before it is shown is not modelled. The source would then call `show()` on a destroyed window.
- Strings.ToLower: maps only ASCII letters, where JavaScript's `toLowerCase` applies full Unicode case mapping.
- ShellLine.Delivered: the shell is modelled as splitting at blanks only. Quoting, escapes and other metacharacters of cmd.exe or /bin/sh are not modelled.
- Startup.StepPercent: the source computes the percent in floating point. The model states the real-number value, which for the six stages is a whole number.

## Findings

| source | as written | input that shows it | evidently intended | confidence | as-written member | corrected member |
|---|---|---|---|---|---|---|
| src/main.js:171-175 | the script is spawned with `shell: true`, so the argument vector is joined with spaces into one command line, which the shell splits again at blanks | a packaged build installed under a directory with a blank, e.g. resourcesPath "C:/Program Files/Pravea/resources", or any caller argument containing a blank or empty | PowerShell receives `-File` with the whole script path and each caller argument as one argument | not executed | ShellLine.ShellSplitsBlankArgument, ShellLine.InstallPathWithBlankIsSplit | ShellLine.DirectSpawnDeliversArguments |

=== FILE: cleanup.dfy ===
/** The option checkboxes of the Active Directory cleanup page: a map from
    option key to flag, with a derived "selectAll" flag that the page keeps
    equal to "every individual option is on". */
module Cleanup {

  const SelectAll := "selectAll"

  /** The individual options, in display order (`cleanupItems`). */
  const Items: seq<string> := [
    "authRestoreSysvol",
    "cleanDNS",
    "currentUserPasswordReset",
    "domainControllerPasswordReset",
    "metadataCleanup",
    "removeCertificates",
    "removeExternalTrusts",
    "removeSecrets",
    "resetAllComputerAccounts",
    "resetAllUserPasswords",
    "resetDSRMPassword",
    "resetKrbtgtPassword",
    "resetRID500Password",
    "resetRODCRevealed",
    "resetTierZeroPasswords",
    "resetTrusts",
    "seizeFSMORoles"
  ]

  type Flags = map<string, bool>

  function ItemKeys(): set<string> {
    set k | k in Items
  }

  function AllKeys(): set<string> {
    {SelectAll} + ItemKeys()
  }

  /** Reading a flag the way JavaScript does: a missing key is falsy. */
  function Flag(m: Flags, key: string): bool {
    key in m && m[key]
  }

  /** `selectAll` is on exactly when every other flag in the map is on. */
  predicate SelectAllConsistent(m: Flags) {
    SelectAll in m && (m[SelectAll] <==> forall k :: k in m && k != SelectAll ==> m[k])
  }

  /** The page's invariant: exactly the known keys, and a consistent
      `selectAll`. */
  predicate Valid(m: Flags) {
    m.Keys == AllKeys() && SelectAllConsistent(m)
  }

  /** The state the page starts in: every flag off. */
  function InitialFlags(): (m: Flags)
    ensures m.Keys == AllKeys()
    ensures forall k :: k in m ==> !m[k]
  {
    map k | k in AllKeys() :: false
  }

  /** `handleCleanupOption`. Toggling `selectAll` sets every key, itself
      included, to the negation of its old value; toggling anything else
      flips that one flag and then recomputes `selectAll` from all the
      others. */
  function Toggle(m: Flags, option: string): (r: Flags)
    ensures option == SelectAll ==> r.Keys == m.Keys && forall k :: k in r ==> r[k] == !Flag(m, SelectAll)
    ensures option != SelectAll ==> r.Keys == m.Keys + {option, SelectAll}
    ensures option != SelectAll ==> r[option] == !Flag(m, option)
    ensures option != SelectAll ==> forall k :: k in m && k != option && k != SelectAll ==> r[k] == m[k]
    ensures option != SelectAll ==> SelectAllConsistent(r)
  {
    if option == SelectAll then
      var newValue := !Flag(m, SelectAll);
      map k | k in m :: newValue
    else
      var flipped := m[option := !Flag(m, option)];
      var allSelected := forall k :: k in flipped && k != SelectAll ==> flipped[k];
      flipped[SelectAll := allSelected]
  }

  lemma ItemsNonEmpty()
    ensures Items[0] in ItemKeys() && Items[0] != SelectAll
  {
  }

  lemma InitialValid()
    ensures Valid(InitialFlags())
  {
    ItemsNonEmpty();
  }

  /** Both kinds of toggle keep the invariant, for the keys the page offers. */
  lemma TogglePreservesValid(m: Flags, option: string)
    requires Valid(m) && option in AllKeys()
    ensures Valid(Toggle(m, option))
  {
    ItemsNonEmpty();
    if option == SelectAll {
      var r := Toggle(m, option);
      assert Items[0] in r && r[Items[0]] == r[SelectAll];
    }
  }

  /** With the invariant, flipping the same option twice gives back the
      original flags. */
  lemma ToggleTwiceRestores(m: Flags, option: string)
    requires Valid(m) && option in ItemKeys()
    ensures Toggle(Toggle(m, option), option) == m
  {
    var once := Toggle(m, option);
    var r := Toggle(once, option);
    assert option in m && option != SelectAll;
    assert once.Keys == m.Keys && r.Keys == m.Keys;
    ToggleOthersTwice(m, once, r, option);
    ConsistentDeterminedByOthers(r, m);
  }

  lemma ToggleOthersTwice(m: Flags, once: Flags, r: Flags, option: string)
    requires option in m && option != SelectAll && once.Keys == m.Keys
    requires once == Toggle(m, option) && r == Toggle(once, option)
    ensures forall k :: k in m && k != SelectAll ==> r[k] == m[k]
  {
  }

  /** Two consistent maps over the same keys that agree off `selectAll`
      agree on it too. */
  lemma ConsistentDeterminedByOthers(a: Flags, b: Flags)
    requires SelectAllConsistent(a) && SelectAllConsistent(b) && a.Keys == b.Keys
    requires forall k :: k in b && k != SelectAll ==> a[k] == b[k]
    ensures a == b
  {
    assert a[SelectAll] == b[SelectAll];
  }

  /** Toggling `selectAll` twice leaves every flag equal to the old
      `selectAll`: all on or all off. */
  lemma ToggleSelectAllTwice(m: Flags)
    requires SelectAll in m
    ensures Toggle(Toggle(m, SelectAll), SelectAll).Keys == m.Keys
    ensures forall k :: k in m ==> Toggle(Toggle(m, SelectAll), SelectAll)[k] == m[SelectAll]
  {
  }

  /** The individual options that are on. */
  function Selected(m: Flags): set<string> {
    set k | k in m && k != SelectAll && m[k]
  }

  /** The counter under the grid: every true value, less one when
      `selectAll` is among them. It is the number of individual options
      that are on, and for the page's keys it never exceeds the number of
      options listed. */
  function SelectedCount(m: Flags): (n: int)
    ensures n == |Selected(m)|
    ensures m.Keys <= AllKeys() ==> n <= |Items|
  {
    var on := TrueKeys(m);
    SplitTrueKeys(m);
    SelectedBound(m);
    if Flag(m, SelectAll) then |on| - 1 else |on|
  }

  function TrueKeys(m: Flags): set<string> {
    set k | k in m && m[k]
  }

  lemma SplitTrueKeys(m: Flags)
    ensures Flag(m, SelectAll) ==> TrueKeys(m) == Selected(m) + {SelectAll} && SelectAll !in Selected(m)
    ensures !Flag(m, SelectAll) ==> TrueKeys(m) == Selected(m)
  {
  }

  lemma SelectedBound(m: Flags)
    ensures m.Keys <= AllKeys() ==> |Selected(m)| <= |Items|
  {
    if m.Keys <= AllKeys() {
      SubsetOfItems(m, SelectAll, ItemKeys());
      SetOfSeqSize(Items);
      SubsetSize(Selected(m), ItemKeys());
    }
  }

  lemma SubsetOfItems(m: Flags, sa: string, items: set<string>)
    requires sa == SelectAll && m.Keys <= {sa} + items
    ensures Selected(m) <= items
  {
  }

  lemma SubsetSize(a: set<string>, b: set<string>)
    requires a <= b
    ensures |a| <= |b|
  {
    assert b == a + (b - a);
  }

  lemma {:induction false} SetOfSeqSize(s: seq<string>)
    ensures |set k | k in s| <= |s|
  {
    if s != [] {
      var init := s[..|s| - 1];
      SetOfSeqSize(init);
      assert s == init + [s[|s| - 1]];
      assert (set k | k in s) == (set k | k in init) + {s[|s| - 1]};
    }
  }

  /** On a valid map, `selectAll` is on exactly when every listed option is
      selected. */
  lemma SelectAllMeansEverySelected(m: Flags)
    requires Valid(m)
    ensures m[SelectAll] <==> Selected(m) == ItemKeys()
  {
  }
}

=== FILE: csv.dfy ===
/** The comma-separated text the export button writes, and a reader for it.
    A value is written between double quotes with every double quote inside
    it doubled; values are separated by ',' and records by '\n', which is the
    quoting of RFC 4180 section 2 (with LF in place of CRLF). The reader
    accepts quoted values and plain values without ',', '\n' or '"', so it
    also reads the export's unquoted header line. */
module Csv {
  import opened Optional
  import opened Strings

  const Quote: char := '"'

  /** `v.replace(/"/g, '""')`. */
  function DoubleQuotes(v: string): (r: string)
    ensures |r| >= |v|
    ensures (forall k :: 0 <= k < |v| ==> v[k] != Quote) ==> r == v
    ensures (exists k :: 0 <= k < |v| && v[k] == Quote) ==> |r| > |v|
  {
    if v == [] then []
    else (if v[0] == Quote then [Quote, Quote] else [v[0]]) + DoubleQuotes(v[1..])
  }

  /** One exported value: quoted, inner quotes doubled. */
  function QuoteField(v: string): (cell: string)
    ensures |cell| >= 2 && cell[0] == Quote && cell[|cell| - 1] == Quote
  {
    [Quote] + DoubleQuotes(v) + [Quote]
  }

  function QuoteAll(fields: seq<string>): (r: seq<string>)
    ensures |r| == |fields|
    ensures forall i :: 0 <= i < |fields| ==> r[i] == QuoteField(fields[i])
  {
    seq(|fields|, i requires 0 <= i < |fields| => QuoteField(fields[i]))
  }

  /** A value that may be written without quotes. */
  predicate Plain(v: string) {
    forall k :: 0 <= k < |v| ==> v[k] != ',' && v[k] != '\n' && v[k] != Quote
  }

  /** `cell` is a correct rendering of `field`. */
  predicate Encodes(cell: string, field: string) {
    cell == QuoteField(field) || (cell == field && Plain(field))
  }

  // ---------------------------------------------------------------------------
  // Reading

  /** The inside of a quoted value, after its opening quote: up to the first
      quote that is not doubled. Gives the value and what follows the closing
      quote, or None when the closing quote is missing. */
  function ParseQuoted(s: string): (r: Option<(string, string)>)
    ensures r.Some? ==> |r.value.1| < |s|
  {
    if s == [] then None
    else if s[0] == Quote then
      if |s| > 1 && s[1] == Quote then
        match ParseQuoted(s[2..])
        case None => None
        case Some((v, rest)) => Some(([Quote] + v, rest))
      else Some(([], s[1..]))
    else
      match ParseQuoted(s[1..])
      case None => None
      case Some((v, rest)) => Some(([s[0]] + v, rest))
  }

  /** An unquoted value: everything up to the next ',' or '\n'. */
  function ParsePlain(s: string): (r: (string, string))
    ensures r.0 + r.1 == s
    ensures r.1 == [] || r.1[0] == ',' || r.1[0] == '\n'
  {
    if s == [] || s[0] == ',' || s[0] == '\n' then ([], s)
    else
      var (v, rest) := ParsePlain(s[1..]);
      ([s[0]] + v, rest)
  }

  function ParseField(s: string): (r: Option<(string, string)>)
    ensures r.Some? ==> |r.value.1| <= |s|
  {
    if s != [] && s[0] == Quote then ParseQuoted(s[1..]) else Some(ParsePlain(s))
  }

  /** One record: values separated by ','. */
  function ParseRecord(s: string): (r: Option<(seq<string>, string)>)
    ensures r.Some? ==> |r.value.1| <= |s| && |r.value.0| > 0
    decreases |s|
  {
    match ParseField(s)
    case None => None
    case Some((v, rest)) =>
      if rest != [] && rest[0] == ',' then
        match ParseRecord(rest[1..])
        case None => None
        case Some((vs, tail)) => Some(([v] + vs, tail))
      else Some(([v], rest))
  }

  /** A whole document: records separated by '\n'. */
  function ParseDocument(s: string): (r: Option<seq<seq<string>>>)
    ensures r.Some? ==> |r.value| > 0
    decreases |s|
  {
    match ParseRecord(s)
    case None => None
    case Some((fields, rest)) =>
      if rest == [] then Some([fields])
      else if rest[0] == '\n' then
        match ParseDocument(rest[1..])
        case None => None
        case Some(records) => Some([fields] + records)
      else None
  }

  // ---------------------------------------------------------------------------
  // Writing then reading gives back what was written

  /** The closing quote is recognised as long as no quote follows it. */
  lemma {:induction false} ParseQuotedRoundTrip(v: string, rest: string)
    requires rest == [] || rest[0] != Quote
    ensures ParseQuoted(DoubleQuotes(v) + [Quote] + rest) == Some((v, rest))
  {
    if v == [] {
      assert DoubleQuotes(v) + [Quote] + rest == [Quote] + rest;
      assert ([Quote] + rest)[1..] == rest;
    } else {
      var tail := DoubleQuotes(v[1..]) + [Quote] + rest;
      ParseQuotedRoundTrip(v[1..], rest);
      DoubleQuotesCons(v, rest);
      ParseQuotedCons(v[0], tail);
      assert [v[0]] + v[1..] == v;
    }
  }

  /** Doubling the quotes of a non-empty value renders its first character,
      then the rest. */
  lemma DoubleQuotesCons(v: string, rest: string)
    requires v != []
    ensures DoubleQuotes(v) + [Quote] + rest
         == (if v[0] == Quote then [Quote, Quote] else [v[0]]) + (DoubleQuotes(v[1..]) + [Quote] + rest)
  {
  }

  /** Reading one rendered character in front of a quoted value's tail. */
  lemma ParseQuotedCons(c: char, tail: string)
    ensures ParseQuoted((if c == Quote then [Quote, Quote] else [c]) + tail)
         == match ParseQuoted(tail)
            case None => None
            case Some((v, rest)) => Some(([c] + v, rest))
  {
    if c == Quote {
      assert ([Quote, Quote] + tail)[2..] == tail;
    } else {
      assert ([c] + tail)[1..] == tail;
    }
  }

  lemma {:induction false} ParsePlainRoundTrip(v: string, rest: string)
    requires Plain(v)
    requires rest == [] || rest[0] == ',' || rest[0] == '\n'
    ensures ParsePlain(v + rest) == (v, rest)
  {
    if v == [] {
      assert v + rest == rest;
    } else {
      assert (v + rest)[1..] == v[1..] + rest;
      ParsePlainRoundTrip(v[1..], rest);
      assert [v[0]] + v[1..] == v;
    }
  }

  /** A quoted value on its own reads back as the value, nothing left over. */
  lemma QuoteFieldReadsBack(v: string)
    ensures ParseField(QuoteField(v)) == Some((v, []))
  {
    ParseQuotedRoundTrip(v, []);
    assert QuoteField(v)[1..] == DoubleQuotes(v) + [Quote] + [];
  }

  /** A value rendered either way reads back, with the text after it left
      for the next value. */
  lemma ParseFieldRoundTrip(cell: string, field: string, rest: string)
    requires Encodes(cell, field)
    requires rest == [] || rest[0] == ',' || rest[0] == '\n'
    ensures ParseField(cell + rest) == Some((field, rest))
  {
    if cell == QuoteField(field) {
      assert (cell + rest)[1..] == DoubleQuotes(field) + [Quote] + rest;
      ParseQuotedRoundTrip(field, rest);
    } else {
      ParsePlainRoundTrip(field, rest);
    }
  }

  /** A record's rendered values joined with ',' read back as the values. */
  lemma {:induction false} ParseRecordRoundTrip(cells: seq<string>, fields: seq<string>, rest: string)
    requires |cells| == |fields| > 0
    requires forall i :: 0 <= i < |cells| ==> Encodes(cells[i], fields[i])
    requires rest == [] || rest[0] == '\n'
    ensures ParseRecord(Join(cells, ",") + rest) == Some((fields, rest))
  {
    if |cells| == 1 {
      ParseFieldRoundTrip(cells[0], fields[0], rest);
      assert [fields[0]] == fields;
    } else {
      var more := Join(cells[1..], ",") + rest;
      JoinConsRest(cells, ",", rest);
      assert forall i :: 0 <= i < |cells| - 1 ==> cells[1..][i] == cells[i + 1] && fields[1..][i] == fields[i + 1];
      ParseRecordRoundTrip(cells[1..], fields[1..], rest);
      ParseRecordCons(cells[0], fields[0], more, fields[1..], rest);
      assert [fields[0]] + fields[1..] == fields;
    }
  }

  lemma JoinConsRest(parts: seq<string>, sep: string, rest: string)
    requires |parts| > 1
    ensures Join(parts, sep) + rest == parts[0] + (sep + (Join(parts[1..], sep) + rest))
  {
  }

  /** A rendered value, a ',' and the rest of a record read back as one
      more value in front of the rest. */
  lemma ParseRecordCons(cell: string, field: string, more: string, fields: seq<string>, rest: string)
    requires Encodes(cell, field)
    requires ParseRecord(more) == Some((fields, rest))
    ensures ParseRecord(cell + ("," + more)) == Some(([field] + fields, rest))
  {
    ParseFieldRoundTrip(cell, field, "," + more);
    assert ("," + more)[1..] == more;
  }

  /** Records rendered and joined with '\n' read back as the records. */
  lemma {:induction false} ParseDocumentRoundTrip(lines: seq<string>, cells: seq<seq<string>>, records: seq<seq<string>>)
    requires |lines| == |cells| == |records| > 0
    requires forall i :: 0 <= i < |lines| ==> lines[i] == Join(cells[i], ",")
    requires forall i :: 0 <= i < |cells| ==> |cells[i]| == |records[i]| > 0
    requires forall i, j :: 0 <= i < |cells| && 0 <= j < |cells[i]| ==> Encodes(cells[i][j], records[i][j])
    ensures ParseDocument(Join(lines, "\n")) == Some(records)
  {
    if |lines| == 1 {
      ParseRecordRoundTrip(cells[0], records[0], []);
      assert Join(cells[0], ",") + [] == Join(lines, "\n");
      assert [records[0]] == records;
    } else {
      var more := Join(lines[1..], "\n");
      assert Join(lines, "\n") == Join(cells[0], ",") + ("\n" + more);
      ParseRecordRoundTrip(cells[0], records[0], "\n" + more);
      assert ("\n" + more)[1..] == more;
      ParseDocumentRoundTrip(lines[1..], cells[1..], records[1..]);
      assert [records[0]] + records[1..] == records;
    }
  }

  /** Every value, quoted, is a correct rendering of itself. */
  lemma QuoteAllEncodes(fields: seq<string>)
    ensures forall i :: 0 <= i < |fields| ==> Encodes(QuoteAll(fields)[i], fields[i])
  {
  }
}

=== FILE: forest_recovery.dfy ===
/** The domain-controller table of the forest recovery page: the rows shown
    for a search query and two drop-down filters, and the CSV text the export
    button produces from exactly those rows. */
module ForestRecovery {
  import opened Optional
  import opened Strings
  import Csv

  /** One table row. `kind` is the source's `type` ("Root" or "Child"). */
  datatype DomainController = DomainController(
    id: int,
    kind: string,
    domain: string,
    domainSid: string,
    site: string,
    samAccountName: string,
    netBios: string,
    fqdn: string,
    isGC: bool,
    isRO: bool,
    ipv4Address: string,
    status: string)

  /** The three controllers the page ships with. */
  function SampleControllers(): seq<DomainController> {
    [ DomainController(1, "Root", "company.local", "S-1-5-21-237783...", "Default-First-Site-Name",
        "DC01$", "DC01", "dc01.company.local", true, false, "10.0.0.1", "Active"),
      DomainController(2, "Child", "sales.company.local", "S-1-5-21-445566...", "Sales-Site",
        "SALESDC$", "SALESDC", "salesdc.sales.company.local", false, false, "10.0.1.10", "Warning"),
      DomainController(3, "Child", "dev.company.local", "S-1-5-21-778899...", "Dev-Site",
        "DEVDC$", "DEVDC", "devdc.dev.company.local", false, false, "10.0.2.10", "Active") ]
  }

  // ---------------------------------------------------------------------------
  // Filtering

  /** An empty query matches everything; otherwise the lower-cased query
      must occur in one of the five searchable columns, lower-cased. */
  predicate MatchesSearch(dc: DomainController, query: string)
    ensures query == "" ==> MatchesSearch(dc, query)
    ensures MatchesSearch(dc, query) <==>
      (query == "" ||
       exists col | col in [dc.domain, dc.fqdn, dc.netBios, dc.site, dc.samAccountName] ::
         Includes(ToLower(col), ToLower(query)))
  {
    var cols := [dc.domain, dc.fqdn, dc.netBios, dc.site, dc.samAccountName];
    assert cols[0] in cols && cols[1] in cols && cols[2] in cols && cols[3] in cols && cols[4] in cols;
    var q := ToLower(query);
    || query == ""
    || Includes(ToLower(dc.domain), q)
    || Includes(ToLower(dc.fqdn), q)
    || Includes(ToLower(dc.netBios), q)
    || Includes(ToLower(dc.site), q)
    || Includes(ToLower(dc.samAccountName), q)
  }

  /** "all" keeps every row, "root" and "child" keep that kind; any other
      value keeps none. The comparison is exact, not case-folded. */
  predicate MatchesDomainFilter(dc: DomainController, domainFilter: string)
    ensures domainFilter == "all" ==> MatchesDomainFilter(dc, domainFilter)
    ensures domainFilter == "root" ==> (MatchesDomainFilter(dc, domainFilter) <==> dc.kind == "Root")
    ensures domainFilter == "child" ==> (MatchesDomainFilter(dc, domainFilter) <==> dc.kind == "Child")
    ensures domainFilter != "all" && domainFilter != "root" && domainFilter != "child" ==>
      !MatchesDomainFilter(dc, domainFilter)
  {
    || domainFilter == "all"
    || (domainFilter == "root" && dc.kind == "Root")
    || (domainFilter == "child" && dc.kind == "Child")
  }

  /** "all" keeps every row, anything else compares with the status without
      regard to case. */
  predicate MatchesStatusFilter(dc: DomainController, statusFilter: string)
    ensures statusFilter == "all" ==> MatchesStatusFilter(dc, statusFilter)
    ensures statusFilter == dc.status || statusFilter == ToLower(dc.status) ==> MatchesStatusFilter(dc, statusFilter)
    ensures MatchesStatusFilter(dc, statusFilter) && statusFilter != "all" ==> |statusFilter| == |dc.status|
    ensures statusFilter != "all" ==>
      (MatchesStatusFilter(dc, statusFilter) <==>
        |statusFilter| == |dc.status| && forall k :: 0 <= k < |dc.status| ==> LowerChar(statusFilter[k]) == LowerChar(dc.status[k]))
  {
    ToLowerIdempotent(dc.status);
    ToLowerEqual(dc.status, statusFilter);
    statusFilter == "all" || ToLower(dc.status) == ToLower(statusFilter)
  }

  predicate Shown(dc: DomainController, query: string, domainFilter: string, statusFilter: string) {
    MatchesSearch(dc, query) && MatchesDomainFilter(dc, domainFilter) && MatchesStatusFilter(dc, statusFilter)
  }

  /** `filteredDomainControllers`: the shown rows, in table order. */
  function Filter(dcs: seq<DomainController>, query: string, domainFilter: string, statusFilter: string)
    : (r: seq<DomainController>)
    ensures |r| <= |dcs|
    ensures forall i :: 0 <= i < |r| ==> Shown(r[i], query, domainFilter, statusFilter)
  {
    if dcs == [] then []
    else
      var rest := Filter(dcs[1..], query, domainFilter, statusFilter);
      if Shown(dcs[0], query, domainFilter, statusFilter) then [dcs[0]] + rest else rest
  }

  /** A row is in the table exactly when it is in the data and shown. */
  lemma {:induction false} FilterMembers(dcs: seq<DomainController>, query: string, domainFilter: string, statusFilter: string)
    ensures forall dc :: dc in Filter(dcs, query, domainFilter, statusFilter) <==>
      dc in dcs && Shown(dc, query, domainFilter, statusFilter)
  {
    if dcs != [] {
      FilterMembers(dcs[1..], query, domainFilter, statusFilter);
      assert dcs == [dcs[0]] + dcs[1..];
    }
  }

  /** Filtering a concatenation filters each part: rows keep their order. */
  lemma {:induction false} FilterAppend(a: seq<DomainController>, b: seq<DomainController>, query: string, domainFilter: string, statusFilter: string)
    ensures Filter(a + b, query, domainFilter, statusFilter)
         == Filter(a, query, domainFilter, statusFilter) + Filter(b, query, domainFilter, statusFilter)
  {
    if a != [] {
      assert (a + b)[1..] == a[1..] + b;
      FilterAppend(a[1..], b, query, domainFilter, statusFilter);
    } else {
      assert a + b == b;
    }
  }

  /** Filtering the shown rows again removes nothing. */
  lemma {:induction false} FilterIdempotent(dcs: seq<DomainController>, query: string, domainFilter: string, statusFilter: string)
    ensures var once := Filter(dcs, query, domainFilter, statusFilter);
      Filter(once, query, domainFilter, statusFilter) == once
  {
    if dcs != [] {
      FilterIdempotent(dcs[1..], query, domainFilter, statusFilter);
      var rest := Filter(dcs[1..], query, domainFilter, statusFilter);
      if Shown(dcs[0], query, domainFilter, statusFilter) {
        assert ([dcs[0]] + rest)[1..] == rest;
      }
    }
  }

  /** With no query and both filters on "all" the table shows every row. */
  lemma {:induction false} NoFilterShowsAll(dcs: seq<DomainController>)
    ensures Filter(dcs, "", "all", "all") == dcs
  {
    if dcs != [] {
      NoFilterShowsAll(dcs[1..]);
      assert [dcs[0]] + dcs[1..] == dcs;
    }
  }

  /** The SID, the address and the status are never searched: rows that
      differ only there match the same queries. */
  lemma SearchSkipsOtherColumns(dc: DomainController, query: string, sid: string, ip: string, status: string)
    ensures MatchesSearch(dc, query)
        <==> MatchesSearch(dc.(domainSid := sid, ipv4Address := ip, status := status), query)
  {
  }

  /** The search ignores the case of the query. */
  lemma SearchIgnoresQueryCase(dc: DomainController, query: string)
    ensures MatchesSearch(dc, query) <==> MatchesSearch(dc, ToLower(query))
  {
    assert ToLower(ToLower(query)) == ToLower(query);
  }

  /** On the shipped rows, "root" leaves the root controller and "child" the
      other two. */
  lemma SampleDomainFilters()
    ensures Filter(SampleControllers(), "", "root", "all") == [SampleControllers()[0]]
    ensures Filter(SampleControllers(), "", "child", "all") == SampleControllers()[1..]
  {
    var s := SampleControllers();
    SampleKinds(s);
    FilterThree(s[0], s[1], s[2], "root");
    FilterThree(s[0], s[1], s[2], "child");
  }

  lemma SampleKinds(s: seq<DomainController>)
    requires s == SampleControllers()
    ensures s == [s[0], s[1], s[2]] && s[1..] == [s[1], s[2]]
    ensures s[0].kind == "Root" && s[1].kind == "Child" && s[2].kind == "Child"
    ensures "Root" != "Child"
  {
  }

  /** With no query and no status filter, a domain filter keeps a row by its
      kind alone. */
  lemma FilterByKind(dcs: seq<DomainController>, domainFilter: string)
    requires dcs != []
    ensures Filter(dcs, "", domainFilter, "all")
         == (if MatchesDomainFilter(dcs[0], domainFilter) then [dcs[0]] else []) + Filter(dcs[1..], "", domainFilter, "all")
  {
  }

  lemma FilterThree(a: DomainController, b: DomainController, c: DomainController, domainFilter: string)
    ensures Filter([a, b, c], "", domainFilter, "all")
         == (if MatchesDomainFilter(a, domainFilter) then [a] else [])
          + (if MatchesDomainFilter(b, domainFilter) then [b] else [])
          + (if MatchesDomainFilter(c, domainFilter) then [c] else [])
  {
    assert [a, b, c][1..] == [b, c] && [b, c][1..] == [c] && [c][1..] == [];
    FilterByKind([c], domainFilter);
    FilterByKind([b, c], domainFilter);
    FilterByKind([a, b, c], domainFilter);
  }

  // ---------------------------------------------------------------------------
  // Export

  const Headers: seq<string> :=
    ["Type", "Domain", "Domain SID", "Site", "SAM Account", "NetBIOS", "FQDN", "GC", "RO", "IPv4 Address", "Status"]

  function YesNo(b: bool): string {
    if b then "Yes" else "No"
  }

  /** The exported values of one row, in header order; the id is not
      exported and the two flags become "Yes"/"No". */
  function RowFields(dc: DomainController): (r: seq<string>)
    ensures |r| == |Headers|
  {
    [dc.kind, dc.domain, dc.domainSid, dc.site, dc.samAccountName, dc.netBios, dc.fqdn,
     YesNo(dc.isGC), YesNo(dc.isRO), dc.ipv4Address, dc.status]
  }

  function HeaderLine(): string {
    Join(Headers, ",")
  }

  function RowLine(dc: DomainController): string {
    Join(Csv.QuoteAll(RowFields(dc)), ",")
  }

  /** `csvLines`: the bare header line, then one quoted line per row. */
  function ExportLines(rows: seq<DomainController>): (lines: seq<string>)
    ensures |lines| == 1 + |rows|
    ensures lines[0] == HeaderLine()
  {
    [HeaderLine()] + seq(|rows|, i requires 0 <= i < |rows| => RowLine(rows[i]))
  }

  /** `handleExport`: the text of the downloaded file. */
  function ExportText(dcs: seq<DomainController>, query: string, domainFilter: string, statusFilter: string): (text: string)
    ensures StartsWith(text, HeaderLine())
  {
    var rows := Filter(dcs, query, domainFilter, statusFilter);
    JoinStartsWithFirst(ExportLines(rows), "\n");
    Join(ExportLines(rows), "\n")
  }

  /** The records of an export: the headers, then each row's values. */
  function ExportRecords(rows: seq<DomainController>): (records: seq<seq<string>>)
    ensures |records| == 1 + |rows|
  {
    [Headers] + seq(|rows|, i requires 0 <= i < |rows| => RowFields(rows[i]))
  }

  lemma HeadersArePlain()
    ensures forall j :: 0 <= j < |Headers| ==> Csv.Plain(Headers[j])
  {
  }

  /** The header line reads back as the headers themselves. */
  lemma HeaderLineReadsBack()
    ensures Csv.ParseRecord(HeaderLine()) == Some((Headers, []))
  {
    HeadersArePlain();
    Csv.ParseRecordRoundTrip(Headers, Headers, []);
    assert HeaderLine() + [] == HeaderLine();
  }

  /** A row's line reads back as its eleven values, in header order. */
  lemma RowLineReadsBack(dc: DomainController)
    ensures Csv.ParseRecord(RowLine(dc)) == Some((RowFields(dc), []))
  {
    var fields := RowFields(dc);
    var cells := Csv.QuoteAll(fields);
    assert forall i :: 0 <= i < |cells| ==> Csv.Encodes(cells[i], fields[i]);
    Csv.ParseRecordRoundTrip(cells, fields, []);
    assert RowLine(dc) + [] == RowLine(dc);
  }

  /** The values each export line is rendered from: the headers bare,
      then each row's values quoted. */
  function ExportCells(rows: seq<DomainController>): (cells: seq<seq<string>>)
    ensures |cells| == 1 + |rows|
  {
    [Headers] + seq(|rows|, i requires 0 <= i < |rows| => Csv.QuoteAll(RowFields(rows[i])))
  }

  lemma ExportCellsEncode(rows: seq<DomainController>)
    ensures forall i, j :: 0 <= i < |ExportCells(rows)| && 0 <= j < |ExportCells(rows)[i]| ==>
      Csv.Encodes(ExportCells(rows)[i][j], ExportRecords(rows)[i][j])
  {
    var cells := ExportCells(rows);
    var records := ExportRecords(rows);
    forall i, j | 0 <= i < |cells| && 0 <= j < |cells[i]|
      ensures Csv.Encodes(cells[i][j], records[i][j])
    {
      if i == 0 {
        HeadersArePlain();
      } else {
        Csv.QuoteAllEncodes(RowFields(rows[i - 1]));
      }
    }
  }

  lemma ExportLinesJoinCells(rows: seq<DomainController>)
    ensures forall i :: 0 <= i < |ExportLines(rows)| ==> ExportLines(rows)[i] == Join(ExportCells(rows)[i], ",")
  {
    forall i | 0 <= i < |ExportLines(rows)|
      ensures ExportLines(rows)[i] == Join(ExportCells(rows)[i], ",")
    {
      if i > 0 {
        ExportRowAt(rows, i - 1);
      }
    }
  }

  /** Line `i + 1` of an export is row `i`, and so are its cells and its
      record. */
  lemma ExportRowAt(rows: seq<DomainController>, i: nat)
    requires i < |rows|
    ensures ExportLines(rows)[i + 1] == RowLine(rows[i])
    ensures ExportCells(rows)[i + 1] == Csv.QuoteAll(RowFields(rows[i]))
    ensures ExportRecords(rows)[i + 1] == RowFields(rows[i])
  {
    ExportLineAt(rows, i);
    ExportCellsAt(rows, i);
    ExportRecordAt(rows, i);
  }

  lemma ExportLineAt(rows: seq<DomainController>, i: nat)
    requires i < |rows|
    ensures ExportLines(rows)[i + 1] == RowLine(rows[i])
  {
  }

  lemma ExportCellsAt(rows: seq<DomainController>, i: nat)
    requires i < |rows|
    ensures ExportCells(rows)[i + 1] == Csv.QuoteAll(RowFields(rows[i]))
  {
  }

  lemma ExportRecordAt(rows: seq<DomainController>, i: nat)
    requires i < |rows|
    ensures ExportRecords(rows)[i + 1] == RowFields(rows[i])
  {
  }

  lemma ExportCellsMatchRecords(rows: seq<DomainController>)
    ensures forall i :: 0 <= i < |ExportCells(rows)| ==> |ExportCells(rows)[i]| == |ExportRecords(rows)[i]| > 0
  {
    var cells := ExportCells(rows);
    var records := ExportRecords(rows);
    forall i | 0 <= i < |cells|
      ensures |cells[i]| == |records[i]| > 0
    {
      if i > 0 {
        ExportRowAt(rows, i - 1);
      }
    }
  }

  /** Reading an export back gives the headers and exactly the values of
      the shown rows, in order, whatever quotes, commas or line breaks those
      values hold. */
  lemma ExportReadsBack(dcs: seq<DomainController>, query: string, domainFilter: string, statusFilter: string)
    ensures Csv.ParseDocument(ExportText(dcs, query, domainFilter, statusFilter))
         == Some(ExportRecords(Filter(dcs, query, domainFilter, statusFilter)))
  {
    var rows := Filter(dcs, query, domainFilter, statusFilter);
    ExportCellsEncode(rows);
    ExportLinesJoinCells(rows);
    ExportCellsMatchRecords(rows);
    Csv.ParseDocumentRoundTrip(ExportLines(rows), ExportCells(rows), ExportRecords(rows));
  }
}

=== FILE: header.dfy ===
/** The top navigation bar: which tab is highlighted for the current route,
    and what clicking a tab does to the route and the open menus. */
module Header {
  import opened Optional
  import opened Strings

  datatype Tab = Tab(id: string, path: string)

  /** The tab table, in declaration order (labels, icons and menu items are
      rendering only). */
  const Tabs: seq<Tab> := [
    Tab("dashboards", "/dashboards"),
    Tab("directory", "/directory"),
    Tab("aws", "/aws"),
    Tab("azure", "/azure"),
    Tab("forensics", "/forensics")
  ]

  predicate IsTabId(id: string) {
    exists i | 0 <= i < |Tabs| :: Tabs[i].id == id
  }

  /** The index of the first tab whose path is a prefix of `pathname`. */
  function FirstPrefixTab(tabs: seq<Tab>, pathname: string): (r: Option<nat>)
    ensures r.Some? ==> r.value < |tabs| && StartsWith(pathname, tabs[r.value].path)
    ensures r.Some? ==> forall j :: 0 <= j < r.value ==> !StartsWith(pathname, tabs[j].path)
    ensures r.None? <==> forall j :: 0 <= j < |tabs| ==> !StartsWith(pathname, tabs[j].path)
  {
    if tabs == [] then None
    else if StartsWith(pathname, tabs[0].path) then Some(0)
    else
      match FirstPrefixTab(tabs[1..], pathname)
      case None => None
      case Some(i) => Some(i + 1)
  }

  /** `getCurrentTab`: the root and "/dashboards" itself are the dashboards;
      any other route belongs to the first tab whose path it starts with,
      with no regard to path segments, or to no tab at all. */
  function CurrentTab(pathname: string): (r: Option<string>)
    ensures pathname == "/" || pathname == "/dashboards" ==> r == Some("dashboards")
    ensures pathname != "/" && pathname != "/dashboards" ==>
      (r.None? <==> forall j :: 0 <= j < |Tabs| ==> !StartsWith(pathname, Tabs[j].path))
    ensures pathname != "/" && pathname != "/dashboards" && r.Some? ==>
      exists i | 0 <= i < |Tabs| :: r.value == Tabs[i].id && StartsWith(pathname, Tabs[i].path)
        && forall j :: 0 <= j < i ==> !StartsWith(pathname, Tabs[j].path)
    ensures r.Some? ==> IsTabId(r.value)
  {
    if pathname == "/" || pathname == "/dashboards" then
      assert Tabs[0].id == "dashboards";
      Some("dashboards")
    else
      match FirstPrefixTab(Tabs, pathname)
      case None => None
      case Some(i) => Some(Tabs[i].id)
  }

  /** The match is on raw characters: a route that merely begins with a tab's
      path belongs to that tab. */
  lemma PrefixIsNotSegmentAware()
    ensures CurrentTab("/awsx") == Some("aws")
  {
    assert StartsWith("/awsx", "/aws");
    assert !StartsWith("/awsx", Tabs[0].path) && !StartsWith("/awsx", Tabs[1].path);
  }

  /** The dashboards menu's "Testing" entry leads to a route no tab claims. */
  lemma TestingRouteHasNoTab()
    ensures CurrentTab("/testing") == None
  {
    var s := "/testing";
    DiffersAt(s, "/dashboards", 1);
    DiffersAt(s, "/directory", 1);
    DiffersAt(s, "/aws", 1);
    DiffersAt(s, "/azure", 1);
    DiffersAt(s, "/forensics", 1);
  }

  lemma DiffersAt(s: string, p: string, k: nat)
    requires k < |s| && k < |p| && s[k] != p[k]
    ensures !StartsWith(s, p)
  {
    if |p| <= |s| {
      assert s[..|p|][k] == s[k];
    }
  }

  // ---------------------------------------------------------------------------
  // Clicking a tab

  /** The route and the two hover menus of the bar. */
  datatype Bar = Bar(pathname: string, activeDropdown: Option<string>, activeSubmenu: Option<string>)

  /** `handleTabClick`: navigate to the tab's path and close both menus. */
  function TabClick(bar: Bar, tab: Tab): (r: Bar)
    ensures r.activeDropdown.None? && r.activeSubmenu.None?
    ensures r.pathname == tab.path
  {
    Bar(tab.path, None, None)
  }

  /** No tab's path starts with the path of a tab declared before it, so the
      first-prefix search finds each tab at its own path. */
  lemma {:induction false} TabPathFindsTab(i: nat)
    requires i < |Tabs|
    ensures FirstPrefixTab(Tabs, Tabs[i].path) == Some(i)
  {
    forall j | 0 <= j < i
      ensures !StartsWith(Tabs[i].path, Tabs[j].path)
    {
      assert Tabs[i].path[1] != Tabs[j].path[1] || Tabs[i].path[2] != Tabs[j].path[2];
    }
    assert StartsWith(Tabs[i].path, Tabs[i].path);
    FirstPrefixUnique(Tabs, Tabs[i].path, i);
  }

  lemma FirstPrefixUnique(tabs: seq<Tab>, pathname: string, i: nat)
    requires i < |tabs| && StartsWith(pathname, tabs[i].path)
    requires forall j :: 0 <= j < i ==> !StartsWith(pathname, tabs[j].path)
    ensures FirstPrefixTab(tabs, pathname) == Some(i)
  {
    var r := FirstPrefixTab(tabs, pathname);
    assert r.Some?;
  }

  /** After clicking a tab the bar highlights that tab, with no menu open. */
  lemma ClickedTabIsCurrent(bar: Bar, i: nat)
    requires i < |Tabs|
    ensures var after := TabClick(bar, Tabs[i]);
      CurrentTab(after.pathname) == Some(Tabs[i].id) && after.activeDropdown.None? && after.activeSubmenu.None?
  {
    TabPathFindsTab(i);
  }
}

=== FILE: option.dfy ===
/** The optional value used across the model for JavaScript's
    `undefined`/`null` results. */
module Optional {
  datatype Option<T> = None | Some(value: T)
}

=== FILE: script_bridge.dfy ===
/** The `run-powershell` IPC handler of the main process: locate a script by
    name, refuse early when it is missing, otherwise spawn the PowerShell
    interpreter on it and turn the way the process ended into one tagged
    result. The file system, the platform and the child process are inputs:
    an `Env` and a `ProcessOutcome` (or the raw event stream of the child). */
module ScriptBridge {
  import opened Optional
  import opened Strings

  /** Everything the handler reads from its surroundings. */
  datatype Env = Env(
    isPackaged: bool,       // app.isPackaged
    platform: string,       // process.platform
    resourcesPath: string,  // process.resourcesPath
    dirname: string,        // __dirname of the main bundle
    cwd: string,            // process.cwd()
    existing: set<string>)  // the paths fs.existsSync reports as present

  /** The handler's answer, tagged instead of `{success, output, error}`:
      a failure always carries an error text and the diagnostic output. */
  datatype ExecResult = Success(output: string) | Failure(error: string, output: string)

  /** `code` of the child's 'close' event: a number, or null when the child
      was ended by a signal. */
  datatype ExitCode = Code(n: int) | NoCode

  /** How the child process ended, with everything it wrote. */
  datatype ProcessOutcome =
    | SpawnFailed(message: string)
    | Closed(code: ExitCode, stdout: string, stderr: string)

  /** The process the handler starts. */
  datatype SpawnSpec = SpawnSpec(command: string, args: seq<string>, cwd: string)

  datatype Resolution = Found(path: string) | NotFound(failure: ExecResult)

  /** One call of the handler: the process it spawned, if any, and the
      value its promise resolves with. */
  datatype Invocation = Invocation(spawned: Option<SpawnSpec>, result: ExecResult)

  // ---------------------------------------------------------------------------
  // Paths

  /** `path.join`, taken as a plain '/'-separated concatenation. */
  function PathJoin(segments: seq<string>): string {
    Join(segments, "/")
  }

  /** Position of the last '/' in `p`. */
  function LastSlash(p: string): (r: Option<nat>)
    ensures r.Some? ==> r.value < |p| && p[r.value] == '/'
    ensures r.Some? ==> forall k :: r.value < k < |p| ==> p[k] != '/'
    ensures r.None? ==> forall k :: 0 <= k < |p| ==> p[k] != '/'
  {
    if p == [] then None
    else if p[|p| - 1] == '/' then Some(|p| - 1)
    else LastSlash(p[..|p| - 1])
  }

  /** `path.dirname`: everything before the last '/'. */
  function Dirname(p: string): (r: string)
    ensures r != []
    ensures LastSlash(p).None? ==> r == "."
    ensures LastSlash(p) == Some(0) ==> r == "/"
    ensures LastSlash(p).Some? && LastSlash(p).value > 0 ==>
      |r| < |p| && p[..|r|] == r && p[|r|] == '/' && forall k :: |r| < k < |p| ==> p[k] != '/'
  {
    match LastSlash(p)
    case None => "."
    case Some(k) => if k == 0 then "/" else p[..k]
  }

  /** The directory a file was joined into is its `dirname`, as long as the
      file name itself holds no '/'. */
  lemma DirnameOfJoin(dir: string, name: string)
    requires dir != []
    requires forall k :: 0 <= k < |name| ==> name[k] != '/'
    ensures Dirname(dir + "/" + name) == dir
  {
    var p := dir + "/" + name;
    assert p[|dir|] == '/';
    assert forall k :: |dir| < k < |p| ==> p[k] == name[k - |dir| - 1];
    assert p[..|dir|] == dir;
  }

  lemma DirnameOfJoinWhenPlain(dir: string, name: string)
    requires dir != []
    ensures (forall k :: 0 <= k < |name| ==> name[k] != '/') ==> Dirname(dir + "/" + name) == dir
  {
    if forall k :: 0 <= k < |name| ==> name[k] != '/' {
      DirnameOfJoin(dir, name);
    }
  }

  function JoinFile(dir: seq<string>, name: string): string {
    PathJoin(dir + [name])
  }

  lemma {:induction false} JoinFileSplits(dir: seq<string>, name: string)
    requires |dir| > 0
    ensures JoinFile(dir, name) == PathJoin(dir) + "/" + name
  {
    assert (dir + [name])[1..] == dir[1..] + [name];
    assert JoinFile(dir, name) == dir[0] + "/" + JoinFile(dir[1..], name);
    if |dir| > 1 {
      JoinFileSplits(dir[1..], name);
      assert PathJoin(dir) == dir[0] + "/" + PathJoin(dir[1..]);
    } else {
      assert dir[1..] + [name] == [name];
      assert PathJoin(dir) == dir[0];
    }
  }

  lemma JoinFileUnder2(a: string, b: string, name: string)
    ensures JoinFile([a, b], name) == a + "/" + b + "/" + name
  {
    JoinFileSplits([a, b], name);
    assert [a, b][1..] == [b];
    assert Join([b], "/") == b;
    assert PathJoin([a, b]) == a + "/" + b;
  }

  lemma JoinFileUnder3(a: string, b: string, c: string, name: string)
    ensures JoinFile([a, b, c], name) == a + "/" + b + "/" + c + "/" + name
  {
    JoinFileSplits([a, b, c], name);
    assert [a, b, c][1..] == [b, c];
    assert [b, c][1..] == [c];
    assert Join([c], "/") == c;
    assert Join([b, c], "/") == b + "/" + c;
    assert PathJoin([a, b, c]) == a + "/" + (b + "/" + c);
  }

  // ---------------------------------------------------------------------------
  // Locating the script

  /** The four places a packaged build may hold the scripts, most specific
      first. */
  function PackagedCandidates(env: Env, name: string): (probed: seq<string>)
    ensures probed == [
      env.resourcesPath + "/" + "scripts" + "/" + name,
      env.resourcesPath + "/" + "app.asar.unpacked" + "/" + "scripts" + "/" + name,
      env.dirname + "/" + ".." + "/" + "scripts" + "/" + name,
      env.resourcesPath + "/" + "app" + "/" + "scripts" + "/" + name ]
  {
    JoinFileUnder2(env.resourcesPath, "scripts", name);
    JoinFileUnder3(env.resourcesPath, "app.asar.unpacked", "scripts", name);
    JoinFileUnder3(env.dirname, "..", "scripts", name);
    JoinFileUnder3(env.resourcesPath, "app", "scripts", name);
    [ JoinFile([env.resourcesPath, "scripts"], name),
      JoinFile([env.resourcesPath, "app.asar.unpacked", "scripts"], name),
      JoinFile([env.dirname, "..", "scripts"], name),
      JoinFile([env.resourcesPath, "app", "scripts"], name) ]
  }

  /** The one place a development run looks. */
  function DevPath(env: Env, name: string): (p: string)
    ensures p == env.cwd + "/" + "scripts" + "/" + name
    ensures (forall k :: 0 <= k < |name| ==> name[k] != '/') ==> Dirname(p) == env.cwd + "/" + "scripts"
  {
    JoinFileUnder2(env.cwd, "scripts", name);
    DirnameOfJoinWhenPlain(env.cwd + "/" + "scripts", name);
    JoinFile([env.cwd, "scripts"], name)
  }

  /** `paths.find(p => fs.existsSync(p))`, as an index. */
  function FindFirst(paths: seq<string>, existing: set<string>): (r: Option<nat>)
    ensures r.Some? ==> r.value < |paths| && paths[r.value] in existing
    ensures r.Some? ==> forall j :: 0 <= j < r.value ==> paths[j] !in existing
    ensures r.None? ==> forall j :: 0 <= j < |paths| ==> paths[j] !in existing
  {
    if paths == [] then None
    else if paths[0] in existing then Some(0)
    else match FindFirst(paths[1..], existing)
      case None => None
      case Some(i) => Some(i + 1)
  }

  /** The packaged build's answer when no candidate exists: the message
      names the script first and ends with the probed paths. */
  function NotFoundSearched(name: string, probed: seq<string>): (r: ExecResult)
    ensures r.Failure? && r.output == []
    ensures StartsWith(r.error, "Script not found: " + name)
    ensures |Join(probed, ", ")| <= |r.error| && r.error[|r.error| - |Join(probed, ", ")|..] == Join(probed, ", ")
  {
    var tail := ". Searched in: " + Join(probed, ", ");
    var error := "Script not found: " + name + tail;
    assert error[..|"Script not found: " + name|] == "Script not found: " + name;
    assert error[|error| - |Join(probed, ", ")|..] == Join(probed, ", ");
    Failure(error, "")
  }

  /** The answer when the chosen path does not exist: the message names the
      script first and ends with the path. */
  function NotFoundAt(name: string, path: string): (r: ExecResult)
    ensures r.Failure? && r.output == []
    ensures StartsWith(r.error, "Script not found: " + name)
    ensures |path| <= |r.error| && r.error[|r.error| - |path|..] == path
  {
    var error := "Script not found: " + name + " at " + path;
    assert error[..|"Script not found: " + name|] == "Script not found: " + name;
    assert error[|error| - |path|..] == path;
    Failure(error, "")
  }

  /** The path the handler will run, or the failure it answers with at once.
      A packaged build takes the first existing candidate; a development run
      takes its single path; either way the chosen path must exist. */
  function Resolve(env: Env, name: string): (r: Resolution)
    ensures r.Found? ==> r.path in env.existing
    ensures r.Found? && !env.isPackaged ==> r.path == DevPath(env, name)
    ensures r.Found? && env.isPackaged ==>
      exists i :: 0 <= i < 4 && r.path == PackagedCandidates(env, name)[i]
        && forall j :: 0 <= j < i ==> PackagedCandidates(env, name)[j] !in env.existing
    ensures r.NotFound? <==>
      if env.isPackaged then forall p :: p in PackagedCandidates(env, name) ==> p !in env.existing
      else DevPath(env, name) !in env.existing
    ensures r.NotFound? ==> r.failure.Failure? && r.failure.output == ""
  {
    var scriptPath :=
      if env.isPackaged then
        var probed := PackagedCandidates(env, name);
        match FindFirst(probed, env.existing)
        case None => NotFound(NotFoundSearched(name, probed))
        case Some(i) => Found(probed[i])
      else Found(DevPath(env, name));
    match scriptPath
    case NotFound(_) => scriptPath
    case Found(p) => if p in env.existing then scriptPath else NotFound(NotFoundAt(name, p))
  }

  /** A not-found failure names the script and, for a packaged build, every
      path that was probed. */
  lemma NotFoundNamesProbes(env: Env, name: string)
    requires Resolve(env, name).NotFound?
    ensures Includes(Resolve(env, name).failure.error, name)
    ensures env.isPackaged ==>
      forall k :: 0 <= k < 4 ==> Includes(Resolve(env, name).failure.error, PackagedCandidates(env, name)[k])
  {
    if env.isPackaged {
      PackagedNotFoundIsSearchFailure(env, name);
      SearchedNamesAll(name, PackagedCandidates(env, name));
    } else {
      var path := DevPath(env, name);
      assert Resolve(env, name).failure == NotFoundAt(name, path);
      AtNamesScript(name, path);
    }
  }

  lemma AtNamesScript(name: string, path: string)
    ensures Includes(NotFoundAt(name, path).error, name)
  {
    IncludesConcat("Script not found: ", name, " at " + path);
    assert NotFoundAt(name, path).error == "Script not found: " + name + (" at " + path);
  }

  lemma SearchedNamesAll(name: string, probed: seq<string>)
    ensures Includes(NotFoundSearched(name, probed).error, name)
    ensures forall k :: 0 <= k < |probed| ==> Includes(NotFoundSearched(name, probed).error, probed[k])
  {
    var listing := Join(probed, ", ");
    var pre := "Script not found: " + name + ". Searched in: ";
    assert NotFoundSearched(name, probed).error == pre + listing;
    IncludesConcat("Script not found: ", name, ". Searched in: " + listing);
    assert "Script not found: " + name + (". Searched in: " + listing) == pre + listing;
    forall k | 0 <= k < |probed|
      ensures Includes(pre + listing, probed[k])
    {
      JoinIncludesPart(probed, ", ", k);
      IncludesAfter(pre, listing, probed[k]);
    }
  }

  /** In a packaged build the second existence check can never fail: the
      path `find` returned exists, so a not-found answer always lists the
      probed paths. */
  lemma PackagedNotFoundIsSearchFailure(env: Env, name: string)
    requires env.isPackaged && Resolve(env, name).NotFound?
    ensures Resolve(env, name).failure == NotFoundSearched(name, PackagedCandidates(env, name))
  {
  }

  // ---------------------------------------------------------------------------
  // Spawning and settling

  /** The interpreter: Windows PowerShell on win32, PowerShell 7 anywhere
      else. */
  function Interpreter(platform: string): (r: string)
    ensures r == "powershell.exe" <==> platform == "win32"
    ensures r == "pwsh" <==> platform != "win32"
  {
    if platform == "win32" then "powershell.exe" else "pwsh"
  }

  /** The process started for an existing script path. */
  function SpawnFor(env: Env, scriptPath: string, args: seq<string>): (spec: SpawnSpec)
    ensures |spec.args| == 4 + |args|
    ensures spec.args[..4] == ["-ExecutionPolicy", "Bypass", "-File", scriptPath]
    ensures spec.args[4..] == args
    ensures spec.command == Interpreter(env.platform)
    ensures spec.cwd == Dirname(spec.args[3])
  {
    var argv := ["-ExecutionPolicy", "Bypass", "-File", scriptPath] + args;
    assert argv[..4] == ["-ExecutionPolicy", "Bypass", "-File", scriptPath] && argv[4..] == args;
    SpawnSpec(Interpreter(env.platform),
              ["-ExecutionPolicy", "Bypass", "-File", scriptPath] + args,
              Dirname(scriptPath))
  }

  const ExitPrefix := "Script execution failed with code "

  /** How a template literal prints the close code. */
  function CodeText(code: ExitCode): (r: string)
    ensures r == "null" <==> code.NoCode?
    ensures code.Code? ==> ParseInt(r) == Some(code.n)
  {
    match code
    case Code(n) =>
      IntToStringRoundTrip(n);
      assert !IsDigit('n');
      IntToString(n)
    case NoCode => "null"
  }

  /** The 'error' and 'close' listeners: exit code 0 is the only success. */
  function Settle(outcome: ProcessOutcome): (r: ExecResult)
    ensures r.Success? <==> outcome.Closed? && outcome.code == Code(0)
    ensures r.Success? ==> r.output == Trim(outcome.stdout)
    ensures outcome.SpawnFailed? ==> r.Failure? && r.output == "" && Includes(r.error, outcome.message)
    ensures outcome.Closed? && outcome.code != Code(0) ==>
      && r.Failure?
      && Includes(r.error, CodeText(outcome.code))
      && (Trim(outcome.stderr) != "" ==> r.output == Trim(outcome.stderr))
      && (Trim(outcome.stderr) == "" ==> r.output == Trim(outcome.stdout))
  {
    match outcome
    case SpawnFailed(message) =>
      IncludesConcat("Failed to start script: ", message, "");
      assert "Failed to start script: " + message + "" == "Failed to start script: " + message;
      Failure("Failed to start script: " + message, "")
    case Closed(code, stdout, stderr) =>
      if code == Code(0) then Success(Trim(stdout))
      else
        IncludesConcat(ExitPrefix, CodeText(code), "");
        assert ExitPrefix + CodeText(code) + "" == ExitPrefix + CodeText(code);
        var diagnostic := if Trim(stderr) != "" then Trim(stderr) else Trim(stdout);
        Failure(ExitPrefix + CodeText(code), diagnostic)
  }

  /** The exit code a failure message reports, read back from its text. */
  function ReportedCode(error: string): Option<int> {
    if StartsWith(error, ExitPrefix) then ParseInt(error[|ExitPrefix|..]) else None
  }

  /** A nonzero exit code can be read back, unchanged, from the error text;
      the text is thus different for every code. */
  lemma ExitCodeRecoverable(n: int, stdout: string, stderr: string)
    requires n != 0
    ensures ReportedCode(Settle(Closed(Code(n), stdout, stderr)).error) == Some(n)
  {
    var e := Settle(Closed(Code(n), stdout, stderr)).error;
    assert e[|ExitPrefix|..] == IntToString(n);
    IntToStringRoundTrip(n);
  }

  /** The whole handler. `outcome` is what the child would do if started; it
      is only consulted when a process is spawned. */
  function RunPowershell(env: Env, name: string, args: seq<string>, outcome: ProcessOutcome): (inv: Invocation)
    ensures inv.spawned.None? ==> inv.result.Failure? && inv.result.output == ""
    ensures inv.spawned.Some? ==>
      && |inv.spawned.value.args| >= 4
      && inv.spawned.value.args[..4] == ["-ExecutionPolicy", "Bypass", "-File", inv.spawned.value.args[3]]
      && inv.spawned.value.args[4..] == args
      && inv.spawned.value.args[3] in env.existing
      && (inv.spawned.value.command == "powershell.exe" <==> env.platform == "win32")
      && (inv.spawned.value.command == "pwsh" <==> env.platform != "win32")
      && inv.spawned.value.cwd == Dirname(inv.spawned.value.args[3])
    ensures inv.spawned.Some? ==> (inv.result.Success? <==> outcome.Closed? && outcome.code == Code(0))
    ensures inv.spawned.Some? <==> Resolve(env, name).Found?
    ensures inv.spawned.Some? ==>
      inv.spawned.value == SpawnFor(env, Resolve(env, name).path, args) && inv.result == Settle(outcome)
    ensures inv.spawned.None? ==> inv.result == Resolve(env, name).failure
  {
    match Resolve(env, name)
    case NotFound(failure) => Invocation(None, failure)
    case Found(p) =>
      var spec := SpawnFor(env, p, args);
      assert spec.args[4..] == args;
      Invocation(Some(spec), Settle(outcome))
  }

  /** A spawned process is the one built for the script path it runs. */
  lemma SpawnedIsSpawnFor(env: Env, name: string, args: seq<string>, outcome: ProcessOutcome)
    requires RunPowershell(env, name, args, outcome).spawned.Some?
    ensures var spec := RunPowershell(env, name, args, outcome).spawned.value;
      spec == SpawnFor(env, spec.args[3], args) && spec.args[3] in env.existing
  {
  }

  /** No process is started exactly when the script cannot be located. */
  lemma NoSpawnIffNotFound(env: Env, name: string, args: seq<string>, outcome: ProcessOutcome)
    ensures RunPowershell(env, name, args, outcome).spawned.None? <==>
      if env.isPackaged then forall p :: p in PackagedCandidates(env, name) ==> p !in env.existing
      else DevPath(env, name) !in env.existing
  {
  }

  /** In a packaged build the script run is the first existing candidate, in
      the fixed probe order. */
  lemma PackagedRunsFirstExisting(env: Env, name: string, args: seq<string>, outcome: ProcessOutcome, i: nat)
    requires env.isPackaged && i < 4
    requires PackagedCandidates(env, name)[i] in env.existing
    requires forall j :: 0 <= j < i ==> PackagedCandidates(env, name)[j] !in env.existing
    ensures RunPowershell(env, name, args, outcome).spawned ==
      Some(SpawnFor(env, PackagedCandidates(env, name)[i], args))
  {
    var probed := PackagedCandidates(env, name);
    var f := FindFirst(probed, env.existing);
    assert f.Some? by {
      assert probed[i] in env.existing;
    }
    assert f.value == i;
  }

  /** The last-resort directory of a packaged build. */
  function FallbackDir(env: Env): seq<string> {
    [env.resourcesPath, "app", "scripts"]
  }

  /** Of the four candidates for a name, only the last lies in the
      last-resort directory. */
  lemma OnlyLastCandidateIsFallback(env: Env, name: string)
    ensures forall j :: 0 <= j < 3 ==> PackagedCandidates(env, name)[j] != JoinFile(FallbackDir(env), name)
  {
    var res := env.resourcesPath;
    var probed := PackagedCandidates(env, name);
    var target := JoinFile(FallbackDir(env), name);
    JoinFileUnder2(res, "scripts", name);
    JoinFileUnder3(res, "app.asar.unpacked", "scripts", name);
    JoinFileUnder3(env.dirname, "..", "scripts", name);
    JoinFileUnder3(res, "app", "scripts", name);
    assert probed[0][|res| + 1] == 's' && target[|res| + 1] == 'a';
    assert probed[1][|res| + 4] == '.' && target[|res| + 4] == '/';
    assert probed[2][|env.dirname| + 1] == '.';
    assert |env.dirname| == |res| + 1 ==> target[|res| + 2] == 'p';
  }

  /** A file joined into a directory runs in that directory. */
  lemma DirnameOfJoinFile(dir: seq<string>, name: string)
    requires |dir| > 0 && PathJoin(dir) != []
    requires forall k :: 0 <= k < |name| ==> name[k] != '/'
    ensures Dirname(JoinFile(dir, name)) == PathJoin(dir)
  {
    JoinFileSplits(dir, name);
    DirnameOfJoin(PathJoin(dir), name);
  }

  lemma TrimOk()
    ensures Trim("  OK\n") == "OK"
  {
    var s := "  OK\n";
    assert s[2..4] == "OK" && s[..2] == "  " && s[4..] == "\n";
    TrimUnique(s, 2, 4);
  }

  /** A packaged build where only the last-resort directory holds the
      script: that copy is run, inside that directory, with the caller's
      arguments appended, and a clean exit passes its trimmed output back. */
  lemma FallbackScenario(env: Env, name: string, args: seq<string>)
    requires env.isPackaged && env.platform == "win32"
    requires forall k :: 0 <= k < |name| ==> name[k] != '/'
    requires env.existing == {JoinFile(FallbackDir(env), name)}
    ensures
      var inv := RunPowershell(env, name, args, Closed(Code(0), "  OK\n", ""));
      && inv.spawned == Some(SpawnSpec("powershell.exe",
           ["-ExecutionPolicy", "Bypass", "-File", JoinFile(FallbackDir(env), name)] + args,
           PathJoin(FallbackDir(env))))
      && inv.result == Success("OK")
  {
    var target := JoinFile(FallbackDir(env), name);
    var outcome := Closed(Code(0), "  OK\n", "");
    FallbackSpawned(env, name, args, outcome);
    FallbackCwd(env, name);
    SpawnedSettles(env, name, args, outcome);
    SettleOk();
  }

  lemma FallbackSpawned(env: Env, name: string, args: seq<string>, outcome: ProcessOutcome)
    requires env.isPackaged
    requires env.existing == {JoinFile(FallbackDir(env), name)}
    ensures RunPowershell(env, name, args, outcome).spawned == Some(SpawnFor(env, JoinFile(FallbackDir(env), name), args))
  {
    OnlyLastCandidateIsFallback(env, name);
    PackagedRunsFirstExisting(env, name, args, outcome, 3);
  }

  lemma FallbackCwd(env: Env, name: string)
    requires forall k :: 0 <= k < |name| ==> name[k] != '/'
    ensures Dirname(JoinFile(FallbackDir(env), name)) == PathJoin(FallbackDir(env))
  {
    assert PathJoin(FallbackDir(env)) != [] by {
      JoinFileUnder2(env.resourcesPath, "app", "scripts");
    }
    DirnameOfJoinFile(FallbackDir(env), name);
  }

  lemma SpawnedSettles(env: Env, name: string, args: seq<string>, outcome: ProcessOutcome)
    ensures RunPowershell(env, name, args, outcome).spawned.Some? ==>
      RunPowershell(env, name, args, outcome).result == Settle(outcome)
  {
  }

  lemma SettleOk()
    ensures Settle(Closed(Code(0), "  OK\n", "")) == Success("OK")
  {
    TrimOk();
  }

  // ---------------------------------------------------------------------------
  // The child's event stream and the promise that settles once

  /** What the handler hears from the child, in order. */
  datatype ProcessEvent =
    | StdoutData(chunk: string)
    | StderrData(chunk: string)
    | ErrorEvent(message: string)
    | CloseEvent(code: ExitCode)

  predicate IsTerminal(e: ProcessEvent) {
    e.ErrorEvent? || e.CloseEvent?
  }

  function StdoutChunk(e: ProcessEvent): string {
    if e.StdoutData? then e.chunk else ""
  }

  function StderrChunk(e: ProcessEvent): string {
    if e.StderrData? then e.chunk else ""
  }

  /** The outcome a terminal event stands for, over the output gathered
      before it. */
  function Terminal(e: ProcessEvent, stdout: string, stderr: string): ProcessOutcome
    requires IsTerminal(e)
  {
    if e.ErrorEvent? then SpawnFailed(e.message) else Closed(e.code, stdout, stderr)
  }

  /** The listeners, with the output gathered so far: data is appended, and
      the first 'error' or 'close' decides how the process ended; what comes
      after cannot change a settled promise. */
  function HeardFrom(events: seq<ProcessEvent>, stdout: string, stderr: string): (r: Option<ProcessOutcome>)
    ensures r.None? <==> forall j :: 0 <= j < |events| ==> !IsTerminal(events[j])
    ensures r.Some? && r.value.SpawnFailed? ==> exists j | 0 <= j < |events| :: events[j] == ErrorEvent(r.value.message)
    ensures r.Some? && r.value.Closed? ==> exists j | 0 <= j < |events| :: events[j] == CloseEvent(r.value.code)
  {
    if events == [] then None
    else if IsTerminal(events[0]) then Some(Terminal(events[0], stdout, stderr))
    else HeardFrom(events[1..], stdout + StdoutChunk(events[0]), stderr + StderrChunk(events[0]))
  }

  /** The value the handler's promise resolves with, or None while pending. */
  function Listen(events: seq<ProcessEvent>): (r: Option<ExecResult>)
    ensures r.None? <==> forall j :: 0 <= j < |events| ==> !IsTerminal(events[j])
    ensures r.Some? && r.value.Success? ==> CloseEvent(Code(0)) in events
  {
    match HeardFrom(events, "", "")
    case None => None
    case Some(outcome) => Some(Settle(outcome))
  }

  /** Index of the first 'error' or 'close' event. */
  function FirstTerminal(events: seq<ProcessEvent>): (r: Option<nat>)
    ensures r.Some? ==> r.value < |events| && IsTerminal(events[r.value])
    ensures r.Some? ==> forall j :: 0 <= j < r.value ==> !IsTerminal(events[j])
    ensures r.None? ==> forall j :: 0 <= j < |events| ==> !IsTerminal(events[j])
  {
    if events == [] then None
    else if IsTerminal(events[0]) then Some(0)
    else match FirstTerminal(events[1..])
      case None => None
      case Some(i) => Some(i + 1)
  }

  /** All stdout data in `events`, in order. */
  function StdoutOf(events: seq<ProcessEvent>): string {
    if events == [] then "" else StdoutChunk(events[0]) + StdoutOf(events[1..])
  }

  function StderrOf(events: seq<ProcessEvent>): string {
    if events == [] then "" else StderrChunk(events[0]) + StderrOf(events[1..])
  }

  /** The output before the `k`-th event is the first event's output, then
      the output of the events after it up to the `k`-th. */
  lemma OutputOfPrefixCons(events: seq<ProcessEvent>, k: nat)
    requires 0 < k <= |events|
    ensures StdoutOf(events[..k]) == StdoutChunk(events[0]) + StdoutOf(events[1..][..k - 1])
    ensures StderrOf(events[..k]) == StderrChunk(events[0]) + StderrOf(events[1..][..k - 1])
  {
    assert events[..k][1..] == events[1..][..k - 1];
    assert events[..k][0] == events[0];
  }

  lemma AppendAssoc(a: string, b: string, c: string)
    ensures (a + b) + c == a + (b + c)
  {
  }

  /** The outcome that the `k`-th event, a terminal one, stands for. */
  function OutcomeAt(events: seq<ProcessEvent>, k: nat): ProcessOutcome
    requires k < |events| && IsTerminal(events[k])
  {
    Terminal(events[k], StdoutOf(events[..k]), StderrOf(events[..k]))
  }

  lemma {:induction false} HeardFromFirstTerminal(events: seq<ProcessEvent>, stdout: string, stderr: string)
    ensures FirstTerminal(events).None? ==> HeardFrom(events, stdout, stderr).None?
    ensures FirstTerminal(events).Some? ==>
      var k := FirstTerminal(events).value;
      HeardFrom(events, stdout, stderr) ==
        Some(Terminal(events[k], stdout + StdoutOf(events[..k]), stderr + StderrOf(events[..k])))
  {
    if events != [] && !IsTerminal(events[0]) {
      var out' := stdout + StdoutChunk(events[0]);
      var err' := stderr + StderrChunk(events[0]);
      HeardFromFirstTerminal(events[1..], out', err');
      if FirstTerminal(events).Some? {
        var k := FirstTerminal(events).value;
        assert FirstTerminal(events[1..]) == Some(k - 1);
        assert events[1..][k - 1] == events[k];
        OutputOfPrefixCons(events, k);
        AppendAssoc(stdout, StdoutChunk(events[0]), StdoutOf(events[1..][..k - 1]));
        AppendAssoc(stderr, StderrChunk(events[0]), StderrOf(events[1..][..k - 1]));
      }
    } else if events != [] {
      assert events[..0] == [];
      assert stdout + StdoutOf(events[..0]) == stdout;
      assert stderr + StderrOf(events[..0]) == stderr;
    }
  }

  /** The promise resolves with the result of the first terminal event, over
      all the data that arrived before it; it stays pending while there is
      none. */
  lemma ListenSettlesOnFirstTerminal(events: seq<ProcessEvent>)
    ensures Listen(events).Some? <==> FirstTerminal(events).Some?
    ensures FirstTerminal(events).Some? ==>
      Listen(events) == Some(Settle(OutcomeAt(events, FirstTerminal(events).value)))
  {
    HeardFromFirstTerminal(events, "", "");
    if FirstTerminal(events).Some? {
      var k := FirstTerminal(events).value;
      assert "" + StdoutOf(events[..k]) == StdoutOf(events[..k]);
      assert "" + StderrOf(events[..k]) == StderrOf(events[..k]);
      assert HeardFrom(events, "", "") == Some(OutcomeAt(events, k));
    }
  }

  /** Settled is final: events after the promise resolved change nothing. */
  lemma {:induction false} HeardFromSettlesOnce(events: seq<ProcessEvent>, later: seq<ProcessEvent>, stdout: string, stderr: string)
    requires HeardFrom(events, stdout, stderr).Some?
    ensures HeardFrom(events + later, stdout, stderr) == HeardFrom(events, stdout, stderr)
  {
    assert (events + later)[0] == events[0];
    if !IsTerminal(events[0]) {
      assert (events + later)[1..] == events[1..] + later;
      HeardFromSettlesOnce(events[1..], later, stdout + StdoutChunk(events[0]), stderr + StderrChunk(events[0]));
    }
  }

  lemma ListenSettlesOnce(events: seq<ProcessEvent>, later: seq<ProcessEvent>)
    requires Listen(events).Some?
    ensures Listen(events + later) == Listen(events)
  {
    HeardFromSettlesOnce(events, later, "", "");
  }

  /** The listeners as the handler runs them: buffers grow with each chunk
      and `resolve` takes effect only the first time it is called. */
  method HandleEvents(events: seq<ProcessEvent>) returns (settled: Option<ExecResult>)
    ensures settled == Listen(events)
  {
    var stdoutData := "";
    var stderrData := "";
    settled := None;
    var i := 0;
    while i < |events|
      invariant 0 <= i <= |events|
      invariant settled.None? ==> HeardFrom(events, "", "") == HeardFrom(events[i..], stdoutData, stderrData)
      invariant settled.Some? ==> settled == Listen(events)
    {
      var e := events[i];
      assert events[i..][0] == e && events[i..][1..] == events[i + 1..];
      match e {
        case StdoutData(c) =>
          assert stderrData + StderrChunk(e) == stderrData;
          stdoutData := stdoutData + c;
        case StderrData(c) =>
          assert stdoutData + StdoutChunk(e) == stdoutData;
          stderrData := stderrData + c;
        case ErrorEvent(m) =>
          if settled.None? {
            settled := Some(Settle(SpawnFailed(m)));
          }
        case CloseEvent(code) =>
          if settled.None? {
            settled := Some(Settle(Closed(code, stdoutData, stderrData)));
          }
      }
      i := i + 1;
    }
  }
}

=== FILE: shell_line.dfy ===
/** What the interpreter actually receives. The handler spawns with
    `shell: true`, and in that mode Node does not pass the argument vector
    through: it joins the command and its arguments with single spaces into
    one command line and hands that line to the shell, which splits it again
    at blanks. Arguments holding a blank (an install directory such as
    "C:/Program Files/...") or empty arguments do not survive the round trip.
    Quotes and other shell metacharacters are not modelled: the splitter only
    knows blanks. */
module ShellLine {
  import opened Strings
  import ScriptBridge

  predicate HasBlank(w: string) {
    exists k :: 0 <= k < |w| && w[k] == ' '
  }

  /** The vector the handler means to run: the command, then its arguments. */
  function Argv(spec: ScriptBridge.SpawnSpec): seq<string> {
    [spec.command] + spec.args
  }

  /** The command line Node builds when the shell option is set. */
  function CommandLine(spec: ScriptBridge.SpawnSpec): string {
    Join(Argv(spec), " ")
  }

  /** Splitting at blanks, a run of blanks counting as one separator; `word`
      is the word read so far. */
  function WordsFrom(line: string, word: string): (ws: seq<string>)
    ensures forall i :: 0 <= i < |ws| ==> ws[i] != [] && (HasBlank(ws[i]) ==> HasBlank(word))
  {
    if line == [] then (if word == [] then [] else [word])
    else if line[0] == ' ' then (if word == [] then [] else [word]) + WordsFrom(line[1..], [])
    else WordsFrom(line[1..], word + [line[0]])
  }

  function Words(line: string): seq<string> {
    WordsFrom(line, [])
  }

  /** The vector the interpreter receives: split from the command line when
      the shell is used, passed through as it is otherwise. */
  function Delivered(spec: ScriptBridge.SpawnSpec, useShell: bool): seq<string> {
    if useShell then Words(CommandLine(spec)) else Argv(spec)
  }

  // ---------------------------------------------------------------------------
  // As written: through the shell

  /** No word the shell produces contains a blank. */
  lemma WordsHaveNoBlank(line: string)
    ensures forall i :: 0 <= i < |Words(line)| ==> !HasBlank(Words(line)[i])
  {
  }

  /** An argument with a blank never reaches the interpreter as one
      argument: the received vector differs from the intended one. */
  lemma ShellSplitsBlankArgument(spec: ScriptBridge.SpawnSpec, k: nat)
    requires k < |spec.args| && HasBlank(spec.args[k])
    ensures Delivered(spec, true) != Argv(spec)
  {
    WordsHaveNoBlank(CommandLine(spec));
    assert Argv(spec)[k + 1] == spec.args[k];
  }

  /** A packaged build installed under a directory whose name has a blank
      runs its script with a path the shell cuts in two: PowerShell is
      handed a different `-File` and stray arguments. */
  lemma InstallPathWithBlankIsSplit(env: ScriptBridge.Env, name: string, args: seq<string>, outcome: ScriptBridge.ProcessOutcome, k: nat)
    requires env.isPackaged && k < |env.resourcesPath| && env.resourcesPath[k] == ' '
    requires ScriptBridge.PackagedCandidates(env, name)[0] in env.existing
    ensures ScriptBridge.RunPowershell(env, name, args, outcome).spawned.Some?
    ensures Delivered(ScriptBridge.RunPowershell(env, name, args, outcome).spawned.value, true)
      != Argv(ScriptBridge.RunPowershell(env, name, args, outcome).spawned.value)
  {
    var path := ScriptBridge.PackagedCandidates(env, name)[0];
    ScriptBridge.PackagedRunsFirstExisting(env, name, args, outcome, 0);
    var spec := ScriptBridge.RunPowershell(env, name, args, outcome).spawned.value;
    ScriptBridge.JoinFileUnder2(env.resourcesPath, "scripts", name);
    assert path[k] == ' ';
    assert spec.args[3] == path;
    ShellSplitsBlankArgument(spec, 3);
  }

  /** Reading a word without blanks extends the current word. */
  lemma {:induction false} WordsFromPlain(w: string, rest: string, word: string)
    requires !HasBlank(w)
    ensures WordsFrom(w + rest, word) == WordsFrom(rest, word + w)
  {
    if w != [] {
      assert (w + rest)[0] == w[0] && (w + rest)[1..] == w[1..] + rest;
      WordsFromPlain(w[1..], rest, word + [w[0]]);
      assert word + [w[0]] + w[1..] == word + w;
    } else {
      assert w + rest == rest && word + w == word;
    }
  }

  lemma {:induction false} WordsFromJoin(ws: seq<string>, word: string)
    requires |ws| > 0
    requires forall i :: 0 <= i < |ws| ==> ws[i] != [] && !HasBlank(ws[i])
    ensures WordsFrom(Join(ws, " "), word) == [word + ws[0]] + ws[1..]
  {
    if |ws| == 1 {
      WordsFromPlain(ws[0], [], word);
      assert ws[0] + [] == ws[0];
    } else {
      var tail := Join(ws[1..], " ");
      assert Join(ws, " ") == ws[0] + (" " + tail);
      WordsFromPlain(ws[0], " " + tail, word);
      assert (" " + tail)[1..] == tail;
      WordsFromJoin(ws[1..], []);
      assert [] + ws[1..][0] == ws[1];
      assert [ws[1]] + ws[1..][1..] == ws[1..];
    }
  }

  /** The shell is harmless exactly for vectors of non-empty words without
      blanks: those it hands over unchanged. */
  lemma ShellKeepsPlainWords(spec: ScriptBridge.SpawnSpec)
    ensures Delivered(spec, true) == Argv(spec) <==>
      forall i :: 0 <= i < |Argv(spec)| ==> Argv(spec)[i] != [] && !HasBlank(Argv(spec)[i])
  {
    var argv := Argv(spec);
    if forall i :: 0 <= i < |argv| ==> argv[i] != [] && !HasBlank(argv[i]) {
      WordsFromJoin(argv, []);
      assert [] + argv[0] == argv[0];
      assert [argv[0]] + argv[1..] == argv;
    } else {
      WordsHaveNoBlank(CommandLine(spec));
    }
  }

  // ---------------------------------------------------------------------------
  // Corrected: the vector handed over directly

  /** Without the shell the interpreter receives the bypass flags, the
      resolved script path and the caller's arguments exactly, whatever
      blanks or empty strings they hold. `Delivered(_, false)` is by
      definition the command followed by the vector, so this is a statement
      about what the handler would hand over, not a proof about `spawn`
      itself. */
  lemma DirectSpawnDeliversArguments(env: ScriptBridge.Env, name: string, args: seq<string>, outcome: ScriptBridge.ProcessOutcome)
    requires ScriptBridge.RunPowershell(env, name, args, outcome).spawned.Some?
    ensures
      var spec := ScriptBridge.RunPowershell(env, name, args, outcome).spawned.value;
      var received := Delivered(spec, false);
      && |received| == 5 + |args|
      && received[..4] == [ScriptBridge.Interpreter(env.platform), "-ExecutionPolicy", "Bypass", "-File"]
      && received[4] in env.existing
      && received[5..] == args
  {
    var spec := ScriptBridge.RunPowershell(env, name, args, outcome).spawned.value;
    ScriptBridge.SpawnedIsSpawnFor(env, name, args, outcome);
    ArgvOfSpawnFor(env, spec.args[3], args);
  }

  lemma ArgvOfSpawnFor(env: ScriptBridge.Env, path: string, args: seq<string>)
    ensures
      var received := Argv(ScriptBridge.SpawnFor(env, path, args));
      && |received| == 5 + |args|
      && received[..4] == [ScriptBridge.Interpreter(env.platform), "-ExecutionPolicy", "Bypass", "-File"]
      && received[4] == path
      && received[5..] == args
  {
    var received := Argv(ScriptBridge.SpawnFor(env, path, args));
    assert received == [ScriptBridge.Interpreter(env.platform), "-ExecutionPolicy", "Bypass", "-File", path] + args;
  }
}

=== FILE: startup.dfy ===
/** The startup choreography of the main process: a splash window shows the
    progress of a simulated initialization while the hidden main window
    loads; the main window is revealed, and the splash destroyed, once both
    the initialization has finished and the main window is ready to show.
    The two signals arrive in either order; timers are left out, so a run is
    a sequence of events. */
module Startup {
  import opened Optional

  // ---------------------------------------------------------------------------
  // The progress ramp

  /** The stages of `simulateInitialization`, in order. */
  const StepLabels: seq<string> := [
    "Verifying application integrity",
    "Loading cryptographic modules",
    "Establishing secure IPC channel",
    "Preparing threat intelligence cache",
    "Scanning local environment",
    "Finalizing secure context"
  ]

  const CompleteLabel := "Startup complete"

  /** The percent sent after stage `i` (counted from 0): the source's
      `5 + ((i + 1) / steps.length) * 90`, which is a whole number for every
      one of the six stages. */
  function StepPercent(i: nat): (p: int)
    requires i < |StepLabels|
    ensures p as real == 5.0 + ((i + 1) as real / |StepLabels| as real) * 90.0
    ensures 20 <= p <= 95
  {
    20 + 15 * i
  }

  /** A message the splash window receives. */
  datatype SplashMessage = Progress(pct: int, step: string) | SplashError(message: string)

  /** The progress messages of a full initialization, built as the loop of
      `simulateInitialization` sends them, then the final 100. */
  method SimulateInitialization() returns (sent: seq<SplashMessage>)
    ensures |sent| == |StepLabels| + 1
    ensures forall j :: 0 <= j < |sent| ==> sent[j].Progress? && 0 <= sent[j].pct <= 100
    ensures forall j :: 0 <= j < |StepLabels| ==> sent[j].step == StepLabels[j] && sent[j].pct <= 95
    ensures forall j, k :: 0 <= j < k < |sent| ==> sent[j].pct < sent[k].pct
    ensures sent[|StepLabels|] == Progress(100, CompleteLabel)
    ensures forall j :: 0 <= j < |StepLabels| ==> sent[j].pct == StepPercent(j)
    ensures sent == ProgressMessages()
  {
    sent := [];
    var i := 0;
    while i < |StepLabels|
      invariant 0 <= i <= |StepLabels| && |sent| == i
      invariant forall j :: 0 <= j < i ==> sent[j] == Progress(StepPercent(j), StepLabels[j])
    {
      sent := sent + [Progress(StepPercent(i), StepLabels[i])];
      i := i + 1;
    }
    sent := sent + [Progress(100, CompleteLabel)];
  }

  /** The same messages as a value. */
  function ProgressMessages(): seq<SplashMessage> {
    seq(|StepLabels|, i requires 0 <= i < |StepLabels| => Progress(StepPercent(i), StepLabels[i]))
      + [Progress(100, CompleteLabel)]
  }

  lemma ProgressRamp()
    ensures |ProgressMessages()| == 7
    ensures forall j, k :: 0 <= j < k < 7 ==> ProgressMessages()[j].pct < ProgressMessages()[k].pct
    ensures [ProgressMessages()[0].pct, ProgressMessages()[1].pct, ProgressMessages()[2].pct,
             ProgressMessages()[3].pct, ProgressMessages()[4].pct, ProgressMessages()[5].pct,
             ProgressMessages()[6].pct] == [20, 35, 50, 65, 80, 95, 100]
  {
  }

  // ---------------------------------------------------------------------------
  // The reveal gate

  /** What `createWindows` keeps: the two flags, whether the initialization
      promise has settled, the main window's visibility together with the
      number of `show()` calls, and the splash window's state and inbox. */
  datatype Gate = Gate(
    initFinished: bool,
    windowReady: bool,
    initSettled: bool,
    mainVisible: bool,
    showCalls: nat,
    splashDestroyed: bool,
    splash: seq<SplashMessage>)

  /** What can happen during startup: the main window's 'ready-to-show', a
      progress send, the settling of the initialization promise, and the
      user closing the splash window (it is closable, which is why every
      send to it checks `isDestroyed`). */
  datatype Event =
    | ReadyToShow
    | ProgressSent(pct: int, step: string)
    | InitResolved
    | InitRejected(message: string)
    | SplashClosed

  const Initial := Gate(false, false, false, false, 0, false, [])

  /** `maybeShow`: with both flags set, show the main window and destroy the
      splash; otherwise nothing. */
  function MaybeShow(g: Gate): (r: Gate)
    ensures r.(mainVisible := g.mainVisible, showCalls := g.showCalls, splashDestroyed := g.splashDestroyed) == g
    ensures g.initFinished && g.windowReady ==> r.mainVisible && r.splashDestroyed && r.showCalls == g.showCalls + 1
    ensures !(g.initFinished && g.windowReady) ==> r == g
  {
    if g.initFinished && g.windowReady then
      g.(mainVisible := true, showCalls := g.showCalls + 1, splashDestroyed := true)
    else g
  }

  /** A send to the splash window, dropped once it is destroyed. */
  function SendToSplash(g: Gate, m: SplashMessage): (r: Gate)
    ensures r.(splash := g.splash) == g
    ensures g.splash <= r.splash
    ensures |r.splash| == |g.splash| + (if g.splashDestroyed then 0 else 1)
    ensures !g.splashDestroyed ==> r.splash[|g.splash|] == m
  {
    if g.splashDestroyed then g else g.(splash := g.splash + [m])
  }

  /** `err.message || 'Initialization failed'`. */
  function ErrorText(message: string): (r: string)
    ensures r != []
    ensures message != [] ==> r == message
  {
    if message == "" then "Initialization failed" else message
  }

  /** One event. 'ready-to-show' is subscribed with `once`, so only its
      first delivery runs the handler, and a promise settles only once. */
  function Step(g: Gate, e: Event): (r: Gate)
    ensures Inv(g) ==> Inv(r)
    ensures g.splash <= r.splash
    ensures g.initSettled ==> r.initSettled && r.initFinished == g.initFinished
    ensures g.windowReady ==> r.windowReady
    ensures r.windowReady <==> g.windowReady || e == ReadyToShow
    ensures Inv(g) ==> (r.splashDestroyed <==> g.splashDestroyed || r.mainVisible || e == SplashClosed)
  {
    match e
    case ReadyToShow =>
      if g.windowReady then g else MaybeShow(g.(windowReady := true))
    case ProgressSent(pct, step) =>
      SendToSplash(g, Progress(pct, step))
    case InitResolved =>
      if g.initSettled then g else MaybeShow(g.(initSettled := true, initFinished := true))
    case InitRejected(message) =>
      if g.initSettled then g else SendToSplash(g.(initSettled := true), SplashError(ErrorText(message)))
    case SplashClosed =>
      g.(splashDestroyed := true)
  }

  function RunFrom(g: Gate, events: seq<Event>): Gate
    decreases |events|
  {
    if events == [] then g else RunFrom(Step(g, events[0]), events[1..])
  }

  function Run(events: seq<Event>): Gate {
    RunFrom(Initial, events)
  }

  /** The gate's invariant: the main window is shown exactly when both flags
      are set, the splash is gone once it is shown (it may be gone earlier,
      closed by the user), and `show()` was called once then and never
      otherwise. */
  predicate Inv(g: Gate) {
    && (g.mainVisible <==> g.initFinished && g.windowReady)
    && (g.mainVisible ==> g.splashDestroyed)
    && g.showCalls == (if g.mainVisible then 1 else 0)
    && (g.initFinished ==> g.initSettled)
  }

  lemma InitialInv()
    ensures Inv(Initial) && !Initial.mainVisible && !Initial.splashDestroyed
  {
  }

  lemma StepPreservesInv(g: Gate, e: Event)
    requires Inv(g)
    ensures Inv(Step(g, e))
  {
  }

  lemma {:induction false} RunFromAppend(g: Gate, a: seq<Event>, b: seq<Event>)
    ensures RunFrom(g, a + b) == RunFrom(RunFrom(g, a), b)
    decreases |a|
  {
    if a != [] {
      assert (a + b)[0] == a[0] && (a + b)[1..] == a[1..] + b;
      RunFromAppend(Step(g, a[0]), a[1..], b);
    } else {
      assert a + b == b;
    }
  }

  /** The first settling of the initialization promise in `events`. */
  function FirstSettle(events: seq<Event>): (r: Option<Event>)
    ensures r.Some? ==> r.value in events && (r.value.InitResolved? || r.value.InitRejected?)
    ensures r.None? ==> forall j :: 0 <= j < |events| ==> !events[j].InitResolved? && !events[j].InitRejected?
  {
    if events == [] then None
    else if events[0].InitResolved? || events[0].InitRejected? then Some(events[0])
    else FirstSettle(events[1..])
  }

  /** What a run does to the flags, from any consistent state. */
  lemma {:induction false} RunFromFlags(g: Gate, events: seq<Event>)
    requires Inv(g)
    ensures Inv(RunFrom(g, events))
    ensures RunFrom(g, events).windowReady <==> g.windowReady || ReadyToShow in events
    ensures RunFrom(g, events).initSettled <==> g.initSettled || FirstSettle(events).Some?
    ensures RunFrom(g, events).initFinished <==>
      g.initFinished || (!g.initSettled && FirstSettle(events) == Some(InitResolved))
    ensures RunFrom(g, events).splashDestroyed <==>
      g.splashDestroyed || RunFrom(g, events).mainVisible || SplashClosed in events
    decreases |events|
  {
    if events != [] {
      StepPreservesInv(g, events[0]);
      RunFromFlags(Step(g, events[0]), events[1..]);
      assert events == [events[0]] + events[1..];
      assert ReadyToShow in events <==> events[0] == ReadyToShow || ReadyToShow in events[1..];
      assert SplashClosed in events <==> events[0] == SplashClosed || SplashClosed in events[1..];
    }
  }

  /** The main window is revealed exactly when 'ready-to-show' fired and the
      initialization resolved, whichever came first, whether or not the user
      closed the splash; `show()` then ran exactly once, and the splash is
      gone exactly when the window was revealed or the user closed it. */
  lemma RevealIffBothSignals(events: seq<Event>)
    ensures Run(events).mainVisible <==> ReadyToShow in events && FirstSettle(events) == Some(InitResolved)
    ensures Run(events).showCalls == (if Run(events).mainVisible then 1 else 0)
    ensures Run(events).splashDestroyed <==> Run(events).mainVisible || SplashClosed in events
  {
    RunFromFlags(Initial, events);
  }

  /** The two signals commute: either order leaves the same state. */
  lemma SignalsCommute(g: Gate)
    requires Inv(g)
    ensures Step(Step(g, ReadyToShow), InitResolved) == Step(Step(g, InitResolved), ReadyToShow)
  {
  }

  /** Calling `maybeShow` again after the reveal shows an already visible
      window and leaves the splash destroyed. */
  lemma MaybeShowIdempotentOnWindows(g: Gate)
    ensures MaybeShow(MaybeShow(g)).mainVisible == MaybeShow(g).mainVisible
    ensures MaybeShow(MaybeShow(g)).splashDestroyed == MaybeShow(g).splashDestroyed
    ensures MaybeShow(MaybeShow(g)).splash == MaybeShow(g).splash
  {
  }

  /** Once the splash is destroyed, progress sends change nothing. */
  lemma ProgressAfterRevealIgnored(g: Gate, pct: int, step: string)
    requires g.splashDestroyed
    ensures Step(g, ProgressSent(pct, step)) == g
  {
  }

  /** The splash inbox only grows. */
  lemma {:induction false} SplashOnlyGrows(g: Gate, events: seq<Event>)
    ensures g.splash <= RunFrom(g, events).splash
    decreases |events|
  {
    if events != [] {
      SplashOnlyGrows(Step(g, events[0]), events[1..]);
    }
  }

  /** Once the splash is gone, nothing more reaches it. */
  lemma {:induction false} ClosedSplashFrozen(g: Gate, events: seq<Event>)
    requires g.splashDestroyed
    ensures RunFrom(g, events).splashDestroyed && RunFrom(g, events).splash == g.splash
    decreases |events|
  {
    if events != [] {
      ClosedSplashFrozen(Step(g, events[0]), events[1..]);
    }
  }

  /** A rejected initialization never reveals the main window. The splash
      receives the error text (or the fallback text) when the user has not
      closed it before the rejection, and receives nothing more otherwise. */
  lemma {:induction false} RejectionKeepsMainHidden(a: seq<Event>, message: string, b: seq<Event>)
    requires FirstSettle(a).None?
    ensures !Run(a + [InitRejected(message)] + b).mainVisible
    ensures SplashClosed !in a ==> SplashError(ErrorText(message)) in Run(a + [InitRejected(message)] + b).splash
    ensures SplashClosed in a ==> Run(a + [InitRejected(message)] + b).splash == Run(a).splash
  {
    var events := a + [InitRejected(message)] + b;
    RunFromAppend(Initial, a, [InitRejected(message)] + b);
    assert events == a + ([InitRejected(message)] + b);
    RunFromFlags(Initial, a);
    var g := Run(a);
    assert !g.initFinished && !g.initSettled && !g.mainVisible;
    var g' := Step(g, InitRejected(message));
    assert RunFrom(g, [InitRejected(message)] + b) == RunFrom(g', b);
    RejectedSplash(g, message, b);
    assert FirstSettle(events) == Some(InitRejected(message)) by {
      FirstSettleAppend(a, [InitRejected(message)] + b);
    }
    RevealIffBothSignals(events);
  }

  lemma RejectedSplash(g: Gate, message: string, b: seq<Event>)
    requires !g.initSettled
    ensures !g.splashDestroyed ==> SplashError(ErrorText(message)) in RunFrom(Step(g, InitRejected(message)), b).splash
    ensures g.splashDestroyed ==> RunFrom(Step(g, InitRejected(message)), b).splash == g.splash
  {
    var g' := Step(g, InitRejected(message));
    if g.splashDestroyed {
      ClosedSplashFrozen(g', b);
    } else {
      assert g'.splash == g.splash + [SplashError(ErrorText(message))];
      assert SplashError(ErrorText(message)) in g'.splash;
      SplashOnlyGrows(g', b);
    }
  }

  lemma {:induction false} FirstSettleAppend(a: seq<Event>, b: seq<Event>)
    requires FirstSettle(a).None?
    ensures FirstSettle(a + b) == FirstSettle(b)
  {
    if a != [] {
      assert (a + b)[0] == a[0] && (a + b)[1..] == a[1..] + b;
      FirstSettleAppend(a[1..], b);
    } else {
      assert a + b == b;
    }
  }

  // ---------------------------------------------------------------------------
  // Whole runs

  /** The events of a successful initialization, in order. */
  function InitEvents(): seq<Event> {
    seq(|ProgressMessages()|, i requires 0 <= i < |ProgressMessages()| =>
      ProgressSent(ProgressMessages()[i].pct, ProgressMessages()[i].step))
      + [InitResolved]
  }

  /** Progress sends and 'ready-to-show' only. */
  predicate Quiet(events: seq<Event>) {
    forall j :: 0 <= j < |events| ==> events[j].ReadyToShow? || events[j].ProgressSent?
  }

  /** The progress messages the sends in `events` carry. */
  function ProgressOf(events: seq<Event>): seq<SplashMessage> {
    if events == [] then []
    else
      var here := if events[0].ProgressSent? then [Progress(events[0].pct, events[0].step)] else [];
      here + ProgressOf(events[1..])
  }

  /** One quiet event before the initialization finishes: a ready signal is
      recorded, a progress send reaches the splash, nothing else changes. */
  lemma QuietStep(g: Gate, e: Event)
    requires Inv(g) && !g.initFinished && (e.ReadyToShow? || e.ProgressSent?)
    ensures Inv(Step(g, e)) && !Step(g, e).initFinished
    ensures Step(g, e) == g.(windowReady := g.windowReady || e == ReadyToShow,
                             splash := g.splash + (if g.splashDestroyed then [] else ProgressOf([e])))
  {
    assert [e][1..] == [];
  }

  lemma QuietTail(events: seq<Event>)
    requires events != [] && Quiet(events)
    ensures Quiet(events[1..])
  {
    forall j | 0 <= j < |events[1..]|
      ensures events[1..][j].ReadyToShow? || events[1..][j].ProgressSent?
    {
      assert events[1..][j] == events[j + 1];
    }
  }

  /** Before the initialization finishes, progress sends all reach the
      splash while it is open, none reach it once the user closed it, and
      nothing is revealed. */
  lemma QuietRun(g: Gate, events: seq<Event>)
    requires Inv(g) && !g.initFinished && Quiet(events)
    ensures RunFrom(g, events) == g.(windowReady := g.windowReady || ReadyToShow in events,
                                     splash := g.splash + (if g.splashDestroyed then [] else ProgressOf(events)))
  {
    if g.splashDestroyed {
      QuietRunClosed(g, events);
      assert g.splash + [] == g.splash;
    } else {
      QuietRunOpen(g, events);
    }
  }

  lemma {:induction false} QuietRunOpen(g: Gate, events: seq<Event>)
    requires Inv(g) && !g.initFinished && !g.splashDestroyed && Quiet(events)
    ensures RunFrom(g, events) == g.(windowReady := g.windowReady || ReadyToShow in events,
                                     splash := g.splash + ProgressOf(events))
    decreases |events|
  {
    if events == [] {
      assert g.splash + [] == g.splash;
    } else {
      var e0, tail := events[0], events[1..];
      QuietStep(g, e0);
      QuietTail(events);
      QuietRunOpen(Step(g, e0), tail);
      assert events == [e0] + tail;
      assert ReadyToShow in events <==> e0 == ReadyToShow || ReadyToShow in tail;
      ProgressOfAppend([e0], tail);
    }
  }

  lemma {:induction false} QuietRunClosed(g: Gate, events: seq<Event>)
    requires Inv(g) && !g.initFinished && g.splashDestroyed && Quiet(events)
    ensures RunFrom(g, events) == g.(windowReady := g.windowReady || ReadyToShow in events)
    decreases |events|
  {
    if events != [] {
      var e0, tail := events[0], events[1..];
      QuietStep(g, e0);
      assert Step(g, e0).splash == g.splash;
      QuietTail(events);
      QuietRunClosed(Step(g, e0), tail);
      assert events == [e0] + tail;
      assert ReadyToShow in events <==> e0 == ReadyToShow || ReadyToShow in tail;
    }
  }

  lemma ProgressOfAppend(a: seq<Event>, b: seq<Event>)
    ensures ProgressOf(a + b) == ProgressOf(a) + ProgressOf(b)
  {
    if a != [] {
      assert (a + b)[1..] == a[1..] + b;
    } else {
      assert a + b == b;
    }
  }

  lemma ProgressOfSends(n: nat)
    requires n <= |ProgressMessages()|
    ensures ProgressOf(InitEvents()[..n]) == ProgressMessages()[..n]
  {
    SendsCarry(InitEvents(), ProgressMessages(), n);
  }

  /** Sends built one for one from progress messages carry those messages. */
  lemma {:induction false} SendsCarry(events: seq<Event>, msgs: seq<SplashMessage>, n: nat)
    requires n <= |msgs| <= |events|
    requires forall i :: 0 <= i < |msgs| ==>
      msgs[i].Progress? && events[i] == ProgressSent(msgs[i].pct, msgs[i].step)
    ensures ProgressOf(events[..n]) == msgs[..n]
  {
    if n > 0 {
      SendsCarry(events, msgs, n - 1);
      assert events[..n] == events[..n - 1] + [events[n - 1]];
      ProgressOfAppend(events[..n - 1], [events[n - 1]]);
      assert [events[n - 1]][1..] == [];
      assert msgs[..n] == msgs[..n - 1] + [msgs[n - 1]];
    }
  }

  lemma QuietAppend(a: seq<Event>, b: seq<Event>)
    requires Quiet(a) && Quiet(b)
    ensures Quiet(a + b)
  {
    forall j | 0 <= j < |a + b|
      ensures (a + b)[j].ReadyToShow? || (a + b)[j].ProgressSent?
    {
      if j >= |a| {
        assert (a + b)[j] == b[j - |a|];
      }
    }
  }

  lemma QuietSlices(sends: seq<Event>, k: nat)
    requires Quiet(sends) && k <= |sends|
    ensures Quiet(sends[..k]) && Quiet(sends[k..])
  {
    assert forall j :: 0 <= j < k ==> sends[..k][j] == sends[j];
    assert forall j :: 0 <= j < |sends| - k ==> sends[k..][j] == sends[k + j];
  }

  /** Slipping 'ready-to-show' into a quiet run keeps it quiet and adds no
      progress message. */
  lemma InsertReady(sends: seq<Event>, k: nat)
    requires Quiet(sends) && k <= |sends|
    ensures var quiet := sends[..k] + [ReadyToShow] + sends[k..];
      Quiet(quiet) && ReadyToShow in quiet && ProgressOf(quiet) == ProgressOf(sends)
  {
    var a, b := sends[..k], sends[k..];
    assert a + b == sends;
    InsertReadyQuiet(a, b);
    InsertReadyProgress(a, b);
  }

  lemma InsertReadyQuiet(a: seq<Event>, b: seq<Event>)
    requires Quiet(a + b)
    ensures Quiet(a + [ReadyToShow] + b) && ReadyToShow in a + [ReadyToShow] + b
  {
    assert (a + [ReadyToShow] + b)[|a|] == ReadyToShow;
    QuietSlices(a + b, |a|);
    assert (a + b)[..|a|] == a && (a + b)[|a|..] == b;
    assert Quiet([ReadyToShow]);
    QuietAppend(a, [ReadyToShow]);
    QuietAppend(a + [ReadyToShow], b);
  }

  lemma InsertReadyProgress(a: seq<Event>, b: seq<Event>)
    ensures ProgressOf(a + [ReadyToShow] + b) == ProgressOf(a + b)
  {
    ProgressOfAppend(a + [ReadyToShow], b);
    ProgressOfAppend(a, [ReadyToShow]);
    assert [ReadyToShow][1..] == [];
    assert ProgressOf([ReadyToShow]) == [];
    assert ProgressOf(a) + [] == ProgressOf(a);
    ProgressOfAppend(a, b);
  }

  /** Any quiet prefix followed by the resolve, with 'ready-to-show' slipped
      in at a point up to the resolve: the main window appears once and the
      splash has every progress message of the prefix. */
  lemma ReadyBeforeResolve(sends: seq<Event>, k: nat)
    requires Quiet(sends) && k <= |sends|
    ensures
      var g := Run(sends[..k] + [ReadyToShow] + sends[k..] + [InitResolved]);
      g.mainVisible && g.showCalls == 1 && g.splashDestroyed && g.splash == ProgressOf(sends)
  {
    var quiet := sends[..k] + [ReadyToShow] + sends[k..];
    InsertReady(sends, k);
    QuietRun(Initial, quiet);
    var g := RunFrom(Initial, quiet);
    assert g.windowReady && !g.initSettled && g.splash == ProgressOf(sends) && g.showCalls == 0;
    RunFromAppend(Initial, quiet, [InitResolved]);
    assert RunFrom(g, [InitResolved]) == Step(g, InitResolved);
  }

  /** The same when 'ready-to-show' comes after the resolve. */
  lemma ReadyAfterResolve(sends: seq<Event>)
    requires Quiet(sends)
    ensures
      var g := Run(sends + [InitResolved] + [ReadyToShow]);
      g.mainVisible && g.showCalls == 1 && g.splashDestroyed && g.splash == ProgressOf(sends)
  {
    QuietRun(Initial, sends);
    var g := RunFrom(Initial, sends);
    RunFromAppend(Initial, sends, [InitResolved, ReadyToShow]);
    assert sends + [InitResolved] + [ReadyToShow] == sends + [InitResolved, ReadyToShow];
    assert [InitResolved, ReadyToShow][1..] == [ReadyToShow];
    assert RunFrom(g, [InitResolved, ReadyToShow]) == Step(Step(g, InitResolved), ReadyToShow);
  }

  /** A successful startup, with 'ready-to-show' arriving after any number
      `k` of the initialization's events: the splash shows the whole ramp,
      then the main window appears, once. */
  lemma SuccessfulStartup(k: nat)
    requires k <= |InitEvents()|
    ensures
      var g := Run(InitEvents()[..k] + [ReadyToShow] + InitEvents()[k..]);
      g.mainVisible && g.showCalls == 1 && g.splashDestroyed && g.splash == ProgressMessages()
  {
    var n := |ProgressMessages()|;
    var sends := InitEvents()[..n];
    assert Quiet(sends);
    ProgressOfSends(n);
    assert ProgressMessages()[..n] == ProgressMessages();
    assert InitEvents() == sends + [InitResolved];
    if k <= n {
      assert InitEvents()[..k] == sends[..k];
      assert InitEvents()[k..] == sends[k..] + [InitResolved];
      assert InitEvents()[..k] + [ReadyToShow] + InitEvents()[k..]
          == sends[..k] + [ReadyToShow] + sends[k..] + [InitResolved];
      ReadyBeforeResolve(sends, k);
    } else {
      assert InitEvents()[..k] + [ReadyToShow] + InitEvents()[k..] == sends + [InitResolved] + [ReadyToShow];
      ReadyAfterResolve(sends);
    }
  }

  /** The user closing the splash part-way through the sends does not stop
      the startup: a resolve after them still reveals the main window once,
      and the splash got exactly the progress sent before it was closed. */
  lemma SplashClosedMidway(sends: seq<Event>, c: nat)
    requires Quiet(sends) && c <= |sends| && ReadyToShow in sends
    ensures
      var g := Run(sends[..c] + [SplashClosed] + sends[c..] + [InitResolved]);
      g.mainVisible && g.showCalls == 1 && g.splashDestroyed && g.splash == ProgressOf(sends[..c])
  {
    var a, b := sends[..c], sends[c..];
    assert a + b == sends;
    QuietSlices(sends, c);
    QuietRun(Initial, a);
    var g2 := Step(Run(a), SplashClosed);
    QuietRun(g2, b);
    var g3 := RunFrom(g2, b);
    assert g3.windowReady;
    RunFromAppend(Initial, a, [SplashClosed]);
    RunFromAppend(Initial, a + [SplashClosed], b);
    RunFromAppend(Initial, a + [SplashClosed] + b, [InitResolved]);
    assert RunFrom(g3, [InitResolved]) == Step(g3, InitResolved);
  }
}

=== FILE: strings.dfy ===
/** The few JavaScript string operations the modelled code relies on:
    `trim`, ASCII `toLowerCase`, `includes`, `startsWith`, `join` and the
    decimal rendering of an integer inside a template literal. */
module Strings {
  import opened Optional

  /** The code points `String.prototype.trim` removes: the WhiteSpace and
      LineTerminator productions of ECMAScript (space separators included). */
  predicate IsJsSpace(c: char) {
    || c == '\t' || c == '\n' || c == '\U{000B}' || c == '\U{000C}' || c == '\r'
    || c == ' ' || c == '\U{00A0}' || c == '\U{1680}'
    || ('\U{2000}' <= c <= '\U{200A}')
    || c == '\U{2028}' || c == '\U{2029}' || c == '\U{202F}' || c == '\U{205F}'
    || c == '\U{3000}' || c == '\U{FEFF}'
  }

  predicate AllSpace(s: string) {
    forall k :: 0 <= k < |s| ==> IsJsSpace(s[k])
  }

  /** Neither end of `s` is a trimmable character. */
  predicate IsTrimmed(s: string) {
    s == [] || (!IsJsSpace(s[0]) && !IsJsSpace(s[|s| - 1]))
  }

  /** The number of trimmable characters `s` starts with. */
  function LeadingSpace(s: string): (k: nat)
    ensures k <= |s| && AllSpace(s[..k])
    ensures k < |s| ==> !IsJsSpace(s[k])
  {
    if s != [] && IsJsSpace(s[0]) then
      var k := LeadingSpace(s[1..]);
      LeadingSpaceStep(s, k);
      k + 1
    else 0
  }

  lemma LeadingSpaceStep(s: string, k: nat)
    requires s != [] && IsJsSpace(s[0])
    requires k <= |s| - 1 && AllSpace(s[1..][..k]) && (k < |s| - 1 ==> !IsJsSpace(s[1..][k]))
    ensures AllSpace(s[..k + 1]) && (k + 1 < |s| ==> !IsJsSpace(s[k + 1]))
  {
    assert s[..k + 1] == [s[0]] + s[1..][..k];
    AllSpaceConcat([s[0]], s[1..][..k]);
  }

  /** The length of `s` without its trailing trimmable characters. */
  function ContentEnd(s: string): (j: nat)
    ensures j <= |s| && AllSpace(s[j..])
    ensures j > 0 ==> !IsJsSpace(s[j - 1])
  {
    if s != [] && IsJsSpace(s[|s| - 1]) then
      var j := ContentEnd(s[..|s| - 1]);
      ContentEndStep(s, j);
      j
    else |s|
  }

  lemma ContentEndStep(s: string, j: nat)
    requires s != [] && IsJsSpace(s[|s| - 1])
    requires j <= |s| - 1 && AllSpace(s[..|s| - 1][j..]) && (j > 0 ==> !IsJsSpace(s[..|s| - 1][j - 1]))
    ensures AllSpace(s[j..]) && (j > 0 ==> !IsJsSpace(s[j - 1]))
  {
    assert s[j..] == s[..|s| - 1][j..] + [s[|s| - 1]];
    AllSpaceConcat(s[..|s| - 1][j..], [s[|s| - 1]]);
  }

  /** `String.prototype.trim`: an infix of `s` that neither starts nor ends
      with a trimmable character, everything cut away being trimmable. */
  function Trim(s: string): (r: string)
    ensures IsTrimmed(r)
    ensures exists i, j :: 0 <= i <= j <= |s| && r == s[i..j] && AllSpace(s[..i]) && AllSpace(s[j..])
  {
    var i := LeadingSpace(s);
    var j := ContentEnd(s[i..]);
    TrimParts(s, i, j);
    s[i..i + j]
  }

  lemma TrimParts(s: string, i: nat, j: nat)
    requires i <= |s| && AllSpace(s[..i]) && (i < |s| ==> !IsJsSpace(s[i]))
    requires j <= |s| - i && AllSpace(s[i..][j..]) && (j > 0 ==> !IsJsSpace(s[i..][j - 1]))
    ensures i + j <= |s| && IsTrimmed(s[i..i + j]) && AllSpace(s[..i]) && AllSpace(s[i + j..])
  {
    assert s[i + j..] == s[i..][j..];
    if j > 0 {
      assert s[i..i + j][0] == s[i];
      assert s[i..i + j][j - 1] == s[i..][j - 1];
    }
  }

  /** The characterisation of `trim`: any non-empty infix without trimmable
      ends, cut out of `s` by trimmable characters only, is what `trim`
      returns. */
  lemma TrimUnique(s: string, i: nat, j: nat)
    requires i < j <= |s| && IsTrimmed(s[i..j]) && AllSpace(s[..i]) && AllSpace(s[j..])
    ensures Trim(s) == s[i..j]
  {
    assert s[i] == s[i..j][0];
    LeadingSpaceUnique(s, i);
    var t := s[i..];
    assert t[j - i - 1] == s[i..j][j - i - 1];
    assert t[j - i..] == s[j..];
    ContentEndUnique(t, j - i);
  }

  lemma LeadingSpaceUnique(s: string, i: nat)
    requires i < |s| && AllSpace(s[..i]) && !IsJsSpace(s[i])
    ensures LeadingSpace(s) == i
  {
    var i0 := LeadingSpace(s);
    assert forall k :: 0 <= k < i ==> s[k] == s[..i][k];
    assert forall k :: 0 <= k < i0 ==> s[k] == s[..i0][k];
  }

  lemma ContentEndUnique(t: string, n: nat)
    requires 0 < n <= |t| && !IsJsSpace(t[n - 1]) && AllSpace(t[n..])
    ensures ContentEnd(t) == n
  {
    var j0 := ContentEnd(t);
    SpaceInTail(t, j0, n - 1);
    SpaceInTail(t, n, j0 - 1);
  }

  /** Every character of an all-space tail is trimmable. */
  lemma SpaceInTail(t: string, m: nat, k: int)
    requires m <= |t| && AllSpace(t[m..])
    ensures m <= k < |t| ==> IsJsSpace(t[k])
  {
    if m <= k < |t| {
      assert t[k] == t[m..][k - m];
    }
  }

  /** Trimming a string that has nothing to trim changes nothing; in
      particular trimming is idempotent. */
  lemma TrimOfTrimmed(s: string)
    requires IsTrimmed(s)
    ensures Trim(s) == s
  {
    if s != [] {
      assert s[..0] == [] && s[|s|..] == [];
      TrimUnique(s, 0, |s|);
    }
  }

  lemma TrimIdempotent(s: string)
    ensures Trim(Trim(s)) == Trim(s)
  {
    TrimOfTrimmed(Trim(s));
  }

  /** A string of trimmable characters only trims to the empty string, and
      only such strings do. */
  lemma TrimEmptyIffAllSpace(s: string)
    ensures Trim(s) == [] <==> AllSpace(s)
  {
    var i := LeadingSpace(s);
    if Trim(s) == [] {
      var j := ContentEnd(s[i..]);
      assert |s[i..i + j]| == 0;
      assert s[i..][j..] == s[i..];
      assert s == s[..i] + s[i..];
      AllSpaceConcat(s[..i], s[i..]);
    } else if i < |s| {
      assert !IsJsSpace(s[i]);
    }
  }

  lemma AllSpaceConcat(a: string, b: string)
    requires AllSpace(a) && AllSpace(b)
    ensures AllSpace(a + b)
  {
    forall k | 0 <= k < |a + b|
      ensures IsJsSpace((a + b)[k])
    {
      if k >= |a| {
        assert (a + b)[k] == b[k - |a|];
      }
    }
  }

  /** ASCII `toLowerCase`; every other character is left as it is. */
  function LowerChar(c: char): char {
    if 'A' <= c <= 'Z' then (c as int + 32) as char else c
  }

  function ToLower(s: string): (r: string)
    ensures |r| == |s|
    ensures forall k :: 0 <= k < |s| ==> r[k] == LowerChar(s[k])
    ensures forall k :: 0 <= k < |r| ==> !('A' <= r[k] <= 'Z')
    ensures forall k :: 0 <= k < |s| && !('A' <= s[k] <= 'Z') ==> r[k] == s[k]
  {
    seq(|s|, k requires 0 <= k < |s| => LowerChar(s[k]))
  }

  /** Two strings lower-case to the same text exactly when they have the
      same length and agree character by character after lowering. */
  lemma ToLowerEqual(a: string, b: string)
    ensures ToLower(a) == ToLower(b) <==>
      (|a| == |b| && forall k :: 0 <= k < |a| ==> LowerChar(a[k]) == LowerChar(b[k]))
  {
    if |a| == |b| && forall k :: 0 <= k < |a| ==> LowerChar(a[k]) == LowerChar(b[k]) {
      assert forall k :: 0 <= k < |a| ==> ToLower(a)[k] == ToLower(b)[k];
    }
  }

  lemma ToLowerIdempotent(s: string)
    ensures ToLower(ToLower(s)) == ToLower(s)
  {
  }

  /** `s.startsWith(p)`. */
  predicate StartsWith(s: string, p: string) {
    |p| <= |s| && s[..|p|] == p
  }

  /** `s.includes(sub)`: `sub` occurs somewhere in `s`. */
  predicate Includes(s: string, sub: string) {
    exists i | 0 <= i <= |s| - |sub| :: OccursAt(s, sub, i)
  }

  predicate OccursAt(s: string, sub: string, i: int) {
    0 <= i <= |s| - |sub| && s[i..i + |sub|] == sub
  }

  lemma IncludesConcat(a: string, b: string, c: string)
    ensures Includes(a + b + c, b)
  {
    assert OccursAt(a + b + c, b, |a|);
  }

  /** An occurrence stays one when text is put in front. */
  lemma IncludesAfter(pre: string, s: string, sub: string)
    requires Includes(s, sub)
    ensures Includes(pre + s, sub)
  {
    var i :| 0 <= i <= |s| - |sub| && OccursAt(s, sub, i);
    assert (pre + s)[|pre| + i..|pre| + i + |sub|] == s[i..i + |sub|];
    assert OccursAt(pre + s, sub, |pre| + i);
  }

  /** `parts.join(sep)`. */
  function Join(parts: seq<string>, sep: string): string {
    if |parts| == 0 then ""
    else if |parts| == 1 then parts[0]
    else parts[0] + sep + Join(parts[1..], sep)
  }

  lemma JoinStartsWithFirst(parts: seq<string>, sep: string)
    requires |parts| > 0
    ensures StartsWith(Join(parts, sep), parts[0])
  {
    if |parts| > 1 {
      assert Join(parts, sep)[..|parts[0]|] == parts[0];
    }
  }

  lemma JoinIncludesPart(parts: seq<string>, sep: string, k: nat)
    requires k < |parts|
    ensures Includes(Join(parts, sep), parts[k])
  {
    if |parts| == 1 {
      assert OccursAt(Join(parts, sep), parts[k], 0);
    } else if k == 0 {
      IncludesConcat("", parts[0], sep + Join(parts[1..], sep));
      assert "" + parts[0] + (sep + Join(parts[1..], sep)) == Join(parts, sep);
    } else {
      JoinIncludesPart(parts[1..], sep, k - 1);
      assert parts[1..][k - 1] == parts[k];
      IncludesAfter(parts[0] + sep, Join(parts[1..], sep), parts[k]);
    }
  }

  // Decimal rendering of numbers, as a template literal prints them.

  predicate IsDigit(c: char) {
    '0' <= c <= '9'
  }

  function DigitChar(d: nat): char
    requires d < 10
  {
    ('0' as int + d) as char
  }

  function NatToString(n: nat): (r: string)
    ensures |r| > 0
    ensures forall k :: 0 <= k < |r| ==> IsDigit(r[k])
    ensures |r| > 1 ==> r[0] != '0'
  {
    if n < 10 then [DigitChar(n)] else NatToString(n / 10) + [DigitChar(n % 10)]
  }

  function IntToString(n: int): (r: string)
    ensures |r| > 0
    ensures r[0] == '-' <==> n < 0
    ensures n < 0 ==> |r| > 1 && forall k :: 1 <= k < |r| ==> IsDigit(r[k])
    ensures n >= 0 ==> forall k :: 0 <= k < |r| ==> IsDigit(r[k])
  {
    if n < 0 then "-" + NatToString(-n) else NatToString(n)
  }

  /** The value of a string of decimal digits. */
  function DigitsValue(s: string): nat
    requires forall k :: 0 <= k < |s| ==> IsDigit(s[k])
  {
    if s == [] then 0
    else
      assert IsDigit(s[|s| - 1]);
      10 * DigitsValue(s[..|s| - 1]) + (s[|s| - 1] as int - '0' as int)
  }

  /** Reading back the rendering of a number gives that number. */
  function ParseInt(s: string): (r: Option<int>) {
    if |s| > 0 && s[0] == '-' && |s| > 1 && forall k :: 1 <= k < |s| ==> IsDigit(s[k]) then
      var v: int := -(DigitsValue(s[1..]) as int);
      Some(v)
    else if |s| > 0 && forall k :: 0 <= k < |s| ==> IsDigit(s[k]) then
      Some(DigitsValue(s))
    else None
  }

  lemma {:induction false} NatToStringValue(n: nat)
    ensures DigitsValue(NatToString(n)) == n
  {
    if n >= 10 {
      NatToStringValue(n / 10);
      var s := NatToString(n);
      assert s[..|s| - 1] == NatToString(n / 10);
    }
  }

  lemma IntToStringRoundTrip(n: int)
    ensures ParseInt(IntToString(n)) == Some(n)
  {
    if n < 0 {
      NatToStringValue(-n);
      assert IntToString(n)[1..] == NatToString(-n);
    } else {
      NatToStringValue(n);
    }
  }

  /** Distinct numbers render differently. */
  lemma IntToStringInjective(m: int, n: int)
    requires IntToString(m) == IntToString(n)
    ensures m == n
  {
    IntToStringRoundTrip(m);
    IntToStringRoundTrip(n);
  }
}
